=== FILE: README.md ===
# Batch configuration of hyfi, in Dafny

This project models `BatchConfig` of hyfi (`src/hyfi/batch/__init__.py`). It covers how a batch run is numbered, seeded and named:

- **Field validation.** A missing batch number becomes the sentinel `-1`. The seed is kept or replaced by a random draw. The output suffix is defaulted. The output extension loses its surrounding dots.
- **Directories.** `root_dir` and `batch_dir` give the batch root, and `config_dir` gives `batch_root / config_dirname`. `batch_dir` and `config_dir` create their directory with `mkdir(parents=True, exist_ok=True)`.
- **File names.** `file_prefix` is `name(num)`, and `output_file` and the YAML and JSON configuration file names are built from it. The glob pattern `name(*)_config.yaml` is built from the batch name and the YAML base name directly, with `*` where the number goes.
- **Batch numbers.** `set_batch_num` gives an unset (negative) number the count of the entries `config_dir.glob(pattern)` yields, or, when resuming the latest run, that count minus one when the count is positive and 0 when there is nothing to resume.

The modules follow that structure:

| module | file | contents |
|---|---|---|
| `Results` | results.dfy | `Option` and `Result` with `:-` propagation |
| `Decimal` | decimal.dfy | Python's `str` on integers and its inverse, used by the `f"{batch_num}"` in `file_prefix` |
| `Glob` | glob.dfy | the `*`/`?` matching of one name against one pattern segment |
| `Paths` | paths.dfy | `Path(s)`, `p / s`, a file system of directories and files, `mkdir(parents=True, exist_ok=True)`, and `Path.glob`, which walks the pattern one `/`-separated segment per directory level |
| `Batch` | batch.dfy | the configuration record, the validators, the directory and file-name properties, `set_batch_num` and construction |
| `BatchProperties` | batch_properties.dfy | lemmas relating several operations: the defaults, repeated set-up and resolution, injectivity of names, a run writing its file and the next run |
| `BatchScenarios` | scenarios.dfy | runs told end to end for any batch with plain names: first run, second run, resume, a gap, and another batch that the pattern also counts |

Modelling choices:

- **Randomness.** `random.randint(0, 2**32 - 1)` becomes a parameter `draw` with `0 <= draw <= 2^32 - 1`.
- **File system.** The disk is a value: a set of directory paths and a set of file paths. Creating directories returns the new disk, and `FileInTheWay` is the error `mkdir` raises when a file sits where a directory must go.
- **Glob.** The modelled `Path.glob` is that of `PosixPath` in Python 3.8 to 3.11. It splits its pattern at `/`, drops empty and `.` segments, and matches one segment per directory level below the scanned directory. Every entry on the way must be a directory, and the last one may be a file or a directory. An empty pattern or one that starts with `/` raises, which the model reports as `UnsupportedPattern`.
- **Construction order.** Construction is `Build`. It validates the fields, as pydantic does before `__init__` body code runs. It then calls `SetBatchNum` on the validated number, as `__init__` does at line 85.

Behaviours of the code worth knowing, which the model keeps:

- **Seeds above 2^32 - 1.** `_validate_seed` (lines 144-150) passes through any non-negative seed when `random_seed` is false, so `ValidateSeed` keeps seeds above `2^32 - 1`. Only drawn seeds are bounded.
- **Other batches counted.** The pattern `a(*)_config.yaml` (line 273) also matches the files of a batch named, for example, `a(0)_b`, so that batch's runs raise this batch's count. `BatchScenarios.OtherBatchCounted` proves this for every such pair of names.
- **`seed=None`.** The field docstring (line 33) says a `None` seed is replaced by a draw. But `seed` is declared `int` (line 61) and `_validate_seed` runs after pydantic's type check, so `None` is rejected before the `v is None` test at line 144. `BatchArgs.seed` is therefore an `int`; only `ValidateSeed` itself keeps the `None` case.
- **Empty batch name.** No validator checks `batch_name`, so an empty name is accepted and gives names such as `(0)_config.yaml`. The model accepts it too.
- **Batch name with a leading `/`.** The pattern then starts with `/` and `Path.glob` raises. `Batch.SetBatchNum` fails with `UnsupportedPattern` on that input.

## Model

| member | source | states |
|---|---|---|
| Batch.ValidateBatchNum | src/hyfi/batch/__init__.py:110-125 | A missing number becomes -1 and a given number is kept. The result is negative, meaning "resolve by scanning", exactly when the number is missing or negative. |
| Batch.ValidateSeed | src/hyfi/batch/__init__.py:127-150 | The given seed passes through only when random seeding is off and the seed is present and non-negative. Otherwise the result is the draw, in `[0, 2^32 - 1]`. The result is never negative. |
| Batch.ValidateOutputSuffix | src/hyfi/batch/__init__.py:152-167 | The result is empty exactly when the suffix is missing or empty. Otherwise it is the given suffix. |
| Batch.StripDots | src/hyfi/batch/__init__.py:171 | `str.strip(".")`: the result neither starts nor ends with a dot. The input is the result with only dots added on either side. The result is empty exactly when the input is all dots. |
| Batch.ValidateOutputExtention | src/hyfi/batch/__init__.py:169-171 | A missing extension gives "". Otherwise the result is the given extension with only surrounding dots removed, and it never starts or ends with a dot. |
| Batch.Validate | src/hyfi/batch/__init__.py:55-171 | Every field after validation: a given number is kept and a missing one is -1. The seed, an `int` as the field is declared, passes through exactly when random seeding is off and it is non-negative, and otherwise the seed is the draw. The suffix is empty exactly when missing or empty, and otherwise kept. A missing extension becomes "", and a given one is the result with only surrounding dots added. Name, root, flags and base names are kept. |
| Batch.RootDir | src/hyfi/batch/__init__.py:173-183 | `Path(batch_root)` is a normal path: each component is a plain name, or the root first. A plain name gives a one-component path. |
| Batch.BatchDir | src/hyfi/batch/__init__.py:185-196 | It succeeds exactly when the root can be created. The root is then a directory, files are untouched, and the new directories are exactly the root and its missing ancestors. |
| Batch.ConfigDirPath | src/hyfi/batch/__init__.py:208 | `batch_root / config_dirname` lies under the batch root unless the directory name is absolute. A plain directory name adds exactly one component. |
| Batch.ConfigDir | src/hyfi/batch/__init__.py:198-210 | It succeeds exactly when no file sits at or above the root or the configuration directory. A failure names the root if a file blocks it, and otherwise the configuration directory. On success both exist, files are untouched, and the new directories are exactly the missing ones among the two paths and their ancestors. |
| Batch.FilePrefix | src/hyfi/batch/__init__.py:212-222 | The prefix is the batch name, `(`, then text that parses back to the batch number, then `)`. |
| Batch.OutputFile | src/hyfi/batch/__init__.py:224-237 | The name is the prefix, then `_suffix` only when the suffix is non-empty, then `.` and the extension. The stated length leaves nothing else. |
| Batch.ConfigFilename | src/hyfi/batch/__init__.py:239-249 | The name is the prefix, `_`, then the YAML base name. |
| Batch.ConfigJsonfile | src/hyfi/batch/__init__.py:251-261 | The name is the prefix, `_`, then the JSON base name. |
| Batch.ConfigFilePattern | src/hyfi/batch/__init__.py:263-273 | The pattern is the batch name, `(`, one `*`, `)_` and the YAML base name, and nothing else. `Path.glob` accepts it exactly when the batch name does not start with `/`. It is a single segment when neither name holds a `/`. |
| Batch.ConfigFilePatternMatches | src/hyfi/batch/__init__.py:263-273 | For names without wildcards, the pattern matches exactly the names that start with `batch_name(` and end with `)_` and the YAML base name. |
| Batch.ConfigFilenameMatchesPattern | src/hyfi/batch/__init__.py:239-273 | The batch's pattern matches its own YAML file name. |
| Batch.ConfigFileIsComponent | src/hyfi/batch/__init__.py:249 | Without separators in the batch name and base name, a configuration file name is a single path component. |
| Batch.ConfigFilepath | src/hyfi/batch/__init__.py:275-285 | It succeeds exactly when `config_dir` does and leaves the same disk. Unless the batch name starts with `/`, the path is the configuration directory followed by the parts of the YAML file name, one part when neither name holds a `/`. A batch name starting with `/` makes the file name absolute, and it replaces the configuration directory. |
| Batch.ConfigJsonpath | src/hyfi/batch/__init__.py:287-297 | It succeeds exactly when `config_dir` does and leaves the same disk. Unless the batch name starts with `/`, the path is the configuration directory followed by the parts of the JSON file name, one part when neither name holds a `/`. A batch name starting with `/` makes the file name absolute, and it replaces the configuration directory. |
| Batch.SetBatchNum | src/hyfi/batch/__init__.py:87-102 | A number of 0 or more is kept, and the disk is untouched. An unset number succeeds exactly when `config_dir` does and the batch name does not start with `/`. When `config_dir` fails, its error comes back; when the name starts with `/`, it fails with the pattern as `UnsupportedPattern`. On success the disk is the one `config_dir` left, and the number is n (fresh run), n-1 (resume with n>0) or 0 (resume with n==0), where n counts the entries the pattern selects. Nothing else changes, and only directories are added. |
| Batch.Build | src/hyfi/batch/__init__.py:75-85 | A built configuration has a non-negative number and seed and keeps its name. A given number of 0 or more is kept and the disk is untouched. |
| BatchProperties.DefaultsOf | src/hyfi/batch/__init__.py:55-69 | With every field left at its default, the number is the sentinel -1, the seed is the draw, suffix and extension are empty, and the latest run is not resumed. |
| BatchProperties.DefaultScan | src/hyfi/batch/__init__.py:55-69 | With the defaults, the scanned directory is `outputs/configs` and the pattern is `name(*)_config.yaml`. |
| BatchProperties.ConfigDirIdempotent | src/hyfi/batch/__init__.py:198-210 | Reading `config_dir` again returns the same path and creates nothing more. |
| BatchProperties.ResolvedByCount | src/hyfi/batch/__init__.py:98-102 | With the directories already present and n runs on disk, an unset number resolves to n, or to n-1 when resuming with n>0. |
| BatchProperties.SetBatchNumIdempotent | src/hyfi/batch/__init__.py:87-102 | Resolving an already resolved configuration changes nothing. |
| BatchProperties.SameScan | src/hyfi/batch/__init__.py:99 | The scan depends only on root, directory name, batch name and YAML base name. |
| BatchProperties.UnsetNumbersResolveAlike | src/hyfi/batch/__init__.py:96-102 | Any two negative numbers resolve identically. |
| BatchProperties.MissingAndNegativeNumbersAgree | src/hyfi/batch/__init__.py:96-125 | Building with no number and building with any negative number give the same result. |
| BatchProperties.SeedIsDeterministic | src/hyfi/batch/__init__.py:144-150 | With random seeding off and a non-negative seed, construction does not depend on the random draw. |
| BatchProperties.ValidationIsStable | src/hyfi/batch/__init__.py:152-171 | Validating an already validated suffix or extension gives it back unchanged. |
| BatchProperties.LeadingDotIsOptional | src/hyfi/batch/__init__.py:171 | `".ext"` and `"ext"` both validate to `ext`. |
| BatchProperties.FilePrefixInjective | src/hyfi/batch/__init__.py:222 | Equal prefixes mean equal batch names and equal batch numbers. |
| BatchProperties.FirstCloseParen | src/hyfi/batch/__init__.py:222-237 | A name without `)` followed by `)` is recovered from the text it starts, which is how the number is read back out of `output_file`. |
| BatchProperties.OutputFileNumbersDiffer | src/hyfi/batch/__init__.py:224-237 | Two runs of the same batch with the same output file name have the same number, whatever their suffixes and extensions. |
| BatchProperties.ConfigFilenameInjective | src/hyfi/batch/__init__.py:249 | With the same YAML base name, two runs write the same file exactly when name and number agree. |
| BatchProperties.ConfigFilesShareStem | src/hyfi/batch/__init__.py:249-261 | The YAML and JSON names share the stem `file_prefix + "_"`. They are equal exactly when the base names are. |
| BatchProperties.PatternMatchesEveryRun | src/hyfi/batch/__init__.py:249-273 | The batch's pattern matches the YAML file of every run of the batch, whatever its number. |
| BatchProperties.ConfigDirReady | src/hyfi/batch/__init__.py:208-210 | After `config_dir`, every ancestor of the root and of the configuration directory is a directory and not a file. |
| BatchProperties.ConfigDirAfterNewFile | src/hyfi/batch/__init__.py:208-210 | A new file outside those directories leaves `config_dir` with nothing to create. |
| BatchProperties.ConfigFilepathOfResolved | src/hyfi/batch/__init__.py:275-285 | After resolution, `config_filepath` creates nothing more and names the file in the scanned directory. |
| BatchProperties.WrittenConfigIsCounted | src/hyfi/batch/__init__.py:99 | Writing a run's new YAML file raises the next scan's count by exactly one. |
| BatchProperties.NextFreshRunAfterWrite | src/hyfi/batch/__init__.py:96-102 | After a fresh run writes its YAML file, the next fresh run is numbered one higher. |
| BatchProperties.ResumeSeesWrite | src/hyfi/batch/__init__.py:99 | A resume-latest configuration of the same batch counts the written file too. |
| BatchProperties.ResumeAfterWriteReattaches | src/hyfi/batch/__init__.py:100-102 | After a fresh run writes its YAML file, a resume-latest run gets that run's number. |
| BatchScenarios.ScanOfEmptyDisk | src/hyfi/batch/__init__.py:195-210 | On an empty disk, `config_dir` creates exactly the root and the configuration directory. |
| BatchScenarios.ScanOfExistingLayout | src/hyfi/batch/__init__.py:195-210 | With both directories present, `config_dir` creates nothing. |
| BatchScenarios.CountInConfigs | src/hyfi/batch/__init__.py:99 | For a batch whose root and configuration directory are plain names: when a single-segment pattern matches every file in the configuration directory, the glob yields exactly those files, so the count is the number of names. |
| BatchScenarios.NumberedAgainst | src/hyfi/batch/__init__.py:98-102 | Against k files of the batch, an unset number resolves to k, or to k-1 when resuming with k>0. |
| BatchScenarios.RunFilePath | src/hyfi/batch/__init__.py:275-285 | With both directories present, run k's configuration file path is the configuration directory plus that run's YAML name, and nothing is created. |
| BatchScenarios.FirstRunIsZero | src/hyfi/batch/__init__.py:98-102 | On an empty disk, fresh and resumed runs are both run 0, with no underflow to -1. Both directories are created. |
| BatchScenarios.SecondFreshRunIsOne | src/hyfi/batch/__init__.py:98-102 | With run 0's file present, a fresh run is run 1. |
| BatchScenarios.ResumeLatestOfTwoIsOne | src/hyfi/batch/__init__.py:98-102 | With the files of runs 0 and 1 present, a resumed run is run 1. |
| BatchScenarios.GapReusesNumber | src/hyfi/batch/__init__.py:96-102 | With only run 1's file left, a fresh run is numbered 1 again, and its configuration file already exists. |
| BatchScenarios.OtherBatchCounted | src/hyfi/batch/__init__.py:273 | A batch named `name(` followed by anything is a different batch, yet its files match this batch's pattern. |
| Paths.EnsureDir | src/hyfi/batch/__init__.py:195 | `mkdir(parents=True, exist_ok=True)` fails exactly when a file sits at the path or at an ancestor. Otherwise the path and all its ancestors are directories, files are untouched, and only those directories are new. It keeps the disk well formed. |
| Paths.EnsureDirIdempotent | src/hyfi/batch/__init__.py:209 | Creating a directory a second time changes nothing. |
| Paths.EnsureDirExisting | src/hyfi/batch/__init__.py:209 | A directory whose ancestors all exist is left as it is. |
| Paths.PathGlob | src/hyfi/batch/__init__.py:99 | `dir.glob(pattern)` raises exactly when the pattern is empty or starts with `/`. Otherwise it yields exactly the entries one level below `dir` per pattern segment, each level matching its segment, every intermediate entry a directory. |
| Paths.GlobOneComponent | src/hyfi/batch/__init__.py:99 | With a single-segment pattern, the glob yields exactly the children of `dir` whose name the segment matches. |
| Paths.CountAfterNewFile | src/hyfi/batch/__init__.py:99 | A new file that the glob selects raises the count by one. |
| Paths.ChildrenCount | src/hyfi/batch/__init__.py:99 | Distinct names give distinct children, so counting the children counts the names. |
| Paths.Parts | src/hyfi/batch/__init__.py:183 | The non-root parts of a path string are plain names, and a plain name is its own single part. |
| Paths.Parse | src/hyfi/batch/__init__.py:183 | `Path(s)` is normal, and it is absolute exactly when `s` starts with `/`. A plain name gives a one-component path. |
| Paths.ParseOfUnsplit | src/hyfi/batch/__init__.py:183 | Joining plain names with `/` and parsing the result gives the names back. |
| Paths.Join | src/hyfi/batch/__init__.py:208 | `p / s` is `p` followed by the parts of `s`, unless `s` is absolute, in which case it is `Path(s)` alone. It stays normal, and joining a plain name appends exactly that name. |
| Paths.SplitRoundTrip | src/hyfi/batch/__init__.py:183 | Splitting a path string at its separators loses nothing. |
| Glob.LiteralMatchIsEquality | src/hyfi/batch/__init__.py:99 | A pattern without wildcards matches only itself. |
| Glob.OneStarMatch | src/hyfi/batch/__init__.py:273 | `a*b`, with literal `a` and `b`, matches exactly the names that start with `a` and end with `b` and are long enough for both. |
| Decimal.IntToString | src/hyfi/batch/__init__.py:222 | `str(i)` is non-empty, is made only of digits and `-`, and starts with `-` exactly when `i < 0`. |
| Decimal.IntToStringRoundTrip | src/hyfi/batch/__init__.py:222 | Parsing `str(i)` gives back `i`. |
| Decimal.ParseIntRoundTrip | src/hyfi/batch/__init__.py:222 | A string that parses is the canonical rendering of its value. |
| Decimal.IntToStringInjective | src/hyfi/batch/__init__.py:222 | Different numbers render differently. |

## Left out

- **Logging.** The `verbose` logging in `set_batch_num` and `_validate_seed` has no effect on results.
- **Random generator.** `random.seed()` reseeding and the random generator itself are out: the draw is a parameter.
- **Direct `None` call.** `set_batch_num(None)` is not modelled. On that path the code assigns -1 and then evaluates `None < 0`, which raises in Python 3. The model receives the number after `_validate_batch_num`, which never passes `None`.
- **Validator machinery.** The pydantic machinery that runs validators is out: `BaseConfig`, `_property_set_methods_`, and the dictionary that gives `_validate_seed` the `random_seed` field. The model assumes every field, defaults included, goes through its validator, and `BaseConfig` is not part of this model. pydantic's type checks are modelled only for `seed`, whose `int` type rejects `None` before `_validate_seed` runs.
- **Unused fields.** `device`, `num_devices`, `num_workers` and `resume_run` are only stored; no modelled operation reads them. `resume_run` is still carried through `BatchArgs` and `BatchConfig`.
- **Character classes.** `[...]` classes in glob patterns are out: `[` is matched literally. Lemmas about the pattern assume names without `*`, `?` and `[`.
- **Recursive glob.** A `**` segment recurses into subdirectories, and `**` inside a longer segment raises; the model treats both as two `*`. Only the `Path.glob` of Python 3.8 to 3.11 is modelled; later releases reimplement it.
- **POSIX paths only.** `\` is an ordinary character and glob matching is case-sensitive. `WindowsPath` also splits at `\` and matches case-insensitively, so on Windows batch `run` would also count `Run(0)_config.yaml`.
- **Path details.** pathlib's handling of `..` and of a leading `//` is out. Paths are component sequences.
- **Concurrency.** Two runs racing to count files and write the same name are not modelled.
- **File system errors.** The only errors modelled are a file in the way of a directory and a pattern `Path.glob` refuses. Permission errors and a full disk are out.
- Batch.SetBatchNum: when the batch name starts with `/`, `config_dir` has already created its directories before `Path.glob` raises. The model returns only the error, so those directories are not reported back.
- Batch.ConfigDir: on failure it returns only the error, not the disk. When the root is created and the configuration directory then fails, the created root is not reported back.
- BatchProperties.WrittenConfigIsCounted: covers only batch and YAML base names without `/`. With a `/` the YAML file lives in a subdirectory of the configuration directory that `config_dir` does not create, and writing it is outside the model.
- BatchProperties.NextFreshRunAfterWrite: covers only batch and YAML base names without `/`. With a `/` the YAML file lives in a subdirectory of the configuration directory that `config_dir` does not create, and writing it is outside the model.
- BatchProperties.ResumeSeesWrite: covers only batch and YAML base names without `/`. With a `/` the YAML file lives in a subdirectory of the configuration directory that `config_dir` does not create, and writing it is outside the model.
- BatchProperties.ResumeAfterWriteReattaches: covers only batch and YAML base names without `/`. With a `/` the YAML file lives in a subdirectory of the configuration directory that `config_dir` does not create, and writing it is outside the model.

=== FILE: batch.dfy ===
/**
  `BatchConfig` of hyfi: how a batch run is numbered, seeded and named.

  The configuration is built in two phases, as in hyfi: the field
  validators turn the keyword arguments into a `BatchConfig`, then
  `SetBatchNum` resolves an unset batch number by counting the configuration
  files earlier runs of the same batch left in the configuration directory.
 */
module Batch {
  import opened Results
  import opened Decimal
  import opened Glob
  import opened Paths

  /** The largest seed `random.randint(0, 2**32 - 1)` can draw. */
  const MaxSeed: int := 0x1_0000_0000 - 1

  /**
    The keyword arguments a `BatchConfig` is built from, before validation.
    `seed` is a plain `int`: the field is declared `int` and its validator runs
    after pydantic's type check, which turns a `None` seed away before the
    validator sees it.
   */
  datatype BatchArgs = BatchArgs(
    batchName: string,
    batchNum: Option<int>,
    batchRoot: string,
    outputSuffix: Option<string>,
    outputExtention: Option<string>,
    randomSeed: bool,
    seed: int,
    resumeRun: bool,
    resumeLatest: bool,
    configYaml: string,
    configJson: string,
    configDirname: string)

  /** The field defaults, given the one required field. */
  function DefaultArgs(batchName: string): BatchArgs {
    BatchArgs(
      batchName := batchName,
      batchNum := None,
      batchRoot := "outputs",
      outputSuffix := Some(""),
      outputExtention := Some(""),
      randomSeed := true,
      seed := -1,
      resumeRun := false,
      resumeLatest := false,
      configYaml := "config.yaml",
      configJson := "config.json",
      configDirname := "configs")
  }

  /** A validated configuration. A negative `batchNum` means "not yet resolved". */
  datatype BatchConfig = BatchConfig(
    batchName: string,
    batchNum: int,
    batchRoot: string,
    outputSuffix: string,
    outputExtention: string,
    randomSeed: bool,
    seed: int,
    resumeRun: bool,
    resumeLatest: bool,
    configYaml: string,
    configJson: string,
    configDirname: string)

  // ---------------------------------------------------------------------
  // Field validators

  /** A missing batch number becomes the sentinel -1; a given one is kept. */
  function ValidateBatchNum(v: Option<int>): (r: int)
    ensures v.None? ==> r == -1
    ensures v.Some? ==> r == v.value
    ensures r < 0 <==> v.None? || v.value < 0
  {
    if v.None? then -1 else v.value
  }

  /**
    The seed is kept only when random seeding is off and a non-negative seed
    was given; otherwise it is the value `draw` that `random.randint` returned.
   */
  function ValidateSeed(randomSeed: bool, v: Option<int>, draw: int): (r: int)
    requires 0 <= draw <= MaxSeed
    ensures !randomSeed && v.Some? && v.value >= 0 ==> r == v.value
    ensures randomSeed || v.None? || v.value < 0 ==> r == draw && 0 <= r <= MaxSeed
    ensures r >= 0
  {
    if randomSeed || v.None? || v.value < 0 then draw else v.value
  }

  /** A missing or empty suffix becomes the empty string. */
  function ValidateOutputSuffix(v: Option<string>): (r: string)
    ensures r == "" <==> v.None? || v.value == ""
    ensures r != "" ==> r == v.value
  {
    if v.None? || v.value == "" then "" else v.value
  }

  predicate AllDots(s: string) {
    forall i :: 0 <= i < |s| ==> s[i] == '.'
  }

  /** `s` is `r` with nothing but dots added at either end. */
  predicate PaddedWithDots(s: string, r: string) {
    exists i :: 0 <= i && i + |r| <= |s| && AllDots(s[..i]) && s[i..i + |r|] == r && AllDots(s[i + |r|..])
  }

  /** How many dots `s` starts with. */
  function LeadingDots(s: string): (n: nat)
    ensures n <= |s|
    ensures forall k :: 0 <= k < n ==> s[k] == '.'
    ensures n == |s| || s[n] != '.'
  {
    if s != [] && s[0] == '.' then
      var m := LeadingDots(s[1..]);
      assert forall k :: 1 <= k < m + 1 ==> s[k] == s[1..][k - 1];
      m + 1
    else 0
  }

  /** How many dots `s` ends with. */
  function TrailingDots(s: string): (n: nat)
    ensures n <= |s|
    ensures forall k :: |s| - n <= k < |s| ==> s[k] == '.'
    ensures n == |s| || s[|s| - n - 1] != '.'
  {
    if s != [] && s[|s| - 1] == '.' then
      var m := TrailingDots(s[..|s| - 1]);
      assert forall k :: |s| - 1 - m <= k < |s| - 1 ==> s[k] == s[..|s| - 1][k];
      m + 1
    else 0
  }

  /** Python's `s.lstrip(".")`. */
  function TrimLeadingDots(s: string): (r: string)
    ensures |r| <= |s| && r == s[|s| - |r|..]
    ensures AllDots(s[..|s| - |r|])
    ensures r == [] || r[0] != '.'
  {
    s[LeadingDots(s)..]
  }

  /** Python's `s.rstrip(".")`. */
  function TrimTrailingDots(s: string): (r: string)
    ensures |r| <= |s| && r == s[..|r|]
    ensures AllDots(s[|r|..])
    ensures r == [] || r[|r| - 1] != '.'
  {
    s[..|s| - TrailingDots(s)]
  }

  /** Python's `s.strip(".")`. */
  function StripDots(s: string): (r: string)
    ensures r == [] || (r[0] != '.' && r[|r| - 1] != '.')
    ensures PaddedWithDots(s, r)
    ensures r == [] <==> AllDots(s)
  {
    TrimmedIsPadded(s);
    TrimmedEmptyIffAllDots(s);
    TrimTrailingDots(TrimLeadingDots(s))
  }

  lemma PaddedAt(s: string, r: string, i: int)
    requires 0 <= i && i + |r| <= |s| && AllDots(s[..i]) && s[i..i + |r|] == r && AllDots(s[i + |r|..])
    ensures PaddedWithDots(s, r)
  {
  }

  lemma TrimmedIsPadded(s: string)
    ensures PaddedWithDots(s, TrimTrailingDots(TrimLeadingDots(s)))
  {
    var t := TrimLeadingDots(s);
    var r := TrimTrailingDots(t);
    var i := |s| - |t|;
    assert s[i..i + |r|] == r;
    assert s[i + |r|..] == t[|r|..];
    PaddedAt(s, r, i);
  }

  lemma TrimmedEmptyIffAllDots(s: string)
    ensures var r := TrimTrailingDots(TrimLeadingDots(s));
            && (r != [] ==> r[0] != '.')
            && (r == [] <==> AllDots(s))
  {
    var t := TrimLeadingDots(s);
    var r := TrimTrailingDots(t);
    var i := |s| - |t|;
    if r != [] {
      assert r[0] == t[0] == s[i];
    } else {
      assert t == [] by {
        assert t[0..] == t;
      }
      assert s == s[..i];
    }
  }

  /** A missing or empty extension becomes ""; any other loses its leading and trailing dots. */
  function ValidateOutputExtention(v: Option<string>): (r: string)
    ensures r == [] || (r[0] != '.' && r[|r| - 1] != '.')
    ensures v.None? ==> r == ""
    ensures v.Some? ==> PaddedWithDots(v.value, r)
  {
    if v.None? || v.value == "" then
      assert v.Some? ==> PaddedWithDots(v.value, "") by {
        if v.Some? {
          PaddedAt(v.value, "", 0);
        }
      }
      ""
    else StripDots(v.value)
  }

  /** Field validation: every field goes through its validator, the rest are copied. */
  function Validate(args: BatchArgs, draw: int): (c: BatchConfig)
    requires 0 <= draw <= MaxSeed
    ensures c.batchNum < 0 <==> args.batchNum.None? || args.batchNum.value < 0
    ensures args.batchNum.None? ==> c.batchNum == -1
    ensures args.batchNum.Some? ==> c.batchNum == args.batchNum.value
    ensures !args.randomSeed && args.seed >= 0 ==> c.seed == args.seed
    ensures args.randomSeed || args.seed < 0 ==> c.seed == draw
    ensures c.outputSuffix == "" <==> args.outputSuffix.None? || args.outputSuffix.value == ""
    ensures c.outputSuffix != "" ==> c.outputSuffix == args.outputSuffix.value
    ensures c.outputExtention == [] || (c.outputExtention[0] != '.' && c.outputExtention[|c.outputExtention| - 1] != '.')
    ensures args.outputExtention.None? ==> c.outputExtention == ""
    ensures args.outputExtention.Some? ==> PaddedWithDots(args.outputExtention.value, c.outputExtention)
    ensures c.batchName == args.batchName && c.batchRoot == args.batchRoot
    ensures c.randomSeed == args.randomSeed && c.resumeRun == args.resumeRun && c.resumeLatest == args.resumeLatest
    ensures c.configYaml == args.configYaml && c.configJson == args.configJson && c.configDirname == args.configDirname
  {
    BatchConfig(
      batchName := args.batchName,
      batchNum := ValidateBatchNum(args.batchNum),
      batchRoot := args.batchRoot,
      outputSuffix := ValidateOutputSuffix(args.outputSuffix),
      outputExtention := ValidateOutputExtention(args.outputExtention),
      randomSeed := args.randomSeed,
      seed := ValidateSeed(args.randomSeed, Some(args.seed), draw),
      resumeRun := args.resumeRun,
      resumeLatest := args.resumeLatest,
      configYaml := args.configYaml,
      configJson := args.configJson,
      configDirname := args.configDirname)
  }

  // ---------------------------------------------------------------------
  // Directories

  /** A path together with the file system after it was made to exist. */
  datatype Located = Located(path: Path, fs: FileSystem)

  /** Only directories were added. */
  predicate Grows(fs: FileSystem, fs': FileSystem) {
    fs'.files == fs.files && fs.dirs <= fs'.dirs
  }

  /** The directories of `fs'` are those of `fs` and `made`, no others. */
  predicate AddsDirs(fs: FileSystem, fs': FileSystem, made: set<Path>) {
    fs'.dirs == fs.dirs + made
  }

  /** `root_dir`: the batch root as a path, nothing created. */
  function RootDir(c: BatchConfig): (p: Path)
    ensures IsNormal(p)
    ensures IsComponent(c.batchRoot) ==> p == [c.batchRoot]
  {
    Parse(c.batchRoot)
  }

  /** `batch_dir`: the batch root, created if missing. */
  function BatchDir(c: BatchConfig, fs: FileSystem): (r: Result<Located, IOError>)
    ensures r.Success? <==> EnsureDir(fs, RootDir(c)).Success?
    ensures r.Success? ==> r.value.path == RootDir(c) && IsDir(r.value.fs, r.value.path) && Grows(fs, r.value.fs)
    ensures r.Success? ==> AddsDirs(fs, r.value.fs, Prefixes(RootDir(c)))
  {
    var fs' :- EnsureDir(fs, RootDir(c));
    Success(Located(RootDir(c), fs'))
  }

  /** Where the configuration files live: `batch_root / config_dirname`. */
  function ConfigDirPath(c: BatchConfig): (p: Path)
    ensures IsNormal(p)
    ensures !(|c.configDirname| > 0 && c.configDirname[0] == '/') ==> RootDir(c) <= p
    ensures IsComponent(c.configDirname) ==> p == RootDir(c) + [c.configDirname]
  {
    Join(RootDir(c), c.configDirname)
  }

  /** `config_dir`: the batch root and then the configuration directory, created if missing. */
  function ConfigDir(c: BatchConfig, fs: FileSystem): (r: Result<Located, IOError>)
    ensures r.Success? <==> !Blocked(fs, RootDir(c)) && !Blocked(fs, ConfigDirPath(c))
    ensures r.Failure? ==> r.error == FileInTheWay(if Blocked(fs, RootDir(c)) then RootDir(c) else ConfigDirPath(c))
    ensures r.Success? ==> r.value.path == ConfigDirPath(c)
    ensures r.Success? ==> IsDir(r.value.fs, RootDir(c)) && IsDir(r.value.fs, r.value.path)
    ensures r.Success? ==> Grows(fs, r.value.fs)
    ensures r.Success? ==> AddsDirs(fs, r.value.fs, Prefixes(RootDir(c)) + Prefixes(ConfigDirPath(c)))
  {
    var root :- BatchDir(c, fs);
    var fs' :- EnsureDir(root.fs, ConfigDirPath(c));
    Success(Located(ConfigDirPath(c), fs'))
  }

  // ---------------------------------------------------------------------
  // File names

  /** `file_prefix`: the batch name followed by the batch number in parentheses. */
  function FilePrefix(c: BatchConfig): (r: string)
    ensures |c.batchName| + 2 < |r|
    ensures r[..|c.batchName| + 1] == c.batchName + "(" && r[|r| - 1] == ')'
    ensures ParseInt(r[|c.batchName| + 1..|r| - 1]) == Some(c.batchNum)
  {
    var digits := IntToString(c.batchNum);
    IntToStringRoundTrip(c.batchNum);
    var r := c.batchName + "(" + digits + ")";
    assert r[|c.batchName| + 1..|r| - 1] == digits;
    r
  }

  /** `output_file`: prefix, then `_suffix` when there is a suffix, then `.extension`. */
  function OutputFile(c: BatchConfig): (r: string)
    ensures var p := FilePrefix(c);
            var middle := if c.outputSuffix == "" then 0 else |c.outputSuffix| + 1;
            && |r| == |p| + middle + 1 + |c.outputExtention|
            && r[..|p|] == p
            && (c.outputSuffix != "" ==> r[|p|] == '_' && r[|p| + 1..|p| + middle] == c.outputSuffix)
            && r[|p| + middle..] == "." + c.outputExtention
  {
    if c.outputSuffix != "" then
      FilePrefix(c) + "_" + c.outputSuffix + "." + c.outputExtention
    else
      FilePrefix(c) + "." + c.outputExtention
  }

  /** The batch name starts with a separator, which makes the pattern start at the root. */
  predicate AbsoluteName(c: BatchConfig) {
    |c.batchName| > 0 && c.batchName[0] == '/'
  }

  /** `config_filepattern`: `batch_name(*)_config_yaml`, one wildcard where the number goes. */
  function ConfigFilePattern(c: BatchConfig): (r: string)
    ensures |r| == |c.batchName| + 4 + |c.configYaml|
    ensures r[..|c.batchName| + 1] == c.batchName + "(" && r[|c.batchName| + 1] == '*'
    ensures r[|c.batchName| + 2..] == ")_" + c.configYaml
    ensures IsGlobbable(r) <==> !AbsoluteName(c)
    ensures '/' !in c.batchName && '/' !in c.configYaml ==> IsComponent(r)
  {
    var head, tail := c.batchName + "(", ")_" + c.configYaml;
    var r := head + ("*" + tail);
    assert r[|head|..] == "*" + tail && r[..|head|] == head;
    assert '/' !in c.batchName && '/' !in c.configYaml ==> '/' !in r by {
      if '/' !in c.batchName && '/' !in c.configYaml {
        assert forall k :: 0 <= k < |r| ==> r[k] in c.batchName || r[k] in c.configYaml || r[k] in "(*)_";
      }
    }
    r
  }

  /**
    With no wildcard character in the batch name or the YAML base name, the
    pattern matches exactly the names that start with `batch_name(` and end
    with `)_config_yaml`.
   */
  lemma ConfigFilePatternMatches(c: BatchConfig, n: string)
    requires Literal(c.batchName) && Literal(c.configYaml)
    ensures Match(ConfigFilePattern(c), n) <==> PatternShape(c.batchName + "(", ")_" + c.configYaml, n)
  {
    var head, tail := c.batchName + "(", ")_" + c.configYaml;
    assert Literal(head) && Literal(tail);
    OneStarMatch(head, tail, n);
  }

  /** `n` starts with `head` and ends with `tail`, with room for both. */
  predicate PatternShape(head: string, tail: string, n: string) {
    |head| + |tail| <= |n| && n[..|head|] == head && n[|n| - |tail|..] == tail
  }

  /** The file name of a configuration file of this run. */
  function ConfigFile(c: BatchConfig, base: string): (r: string)
    ensures var p := FilePrefix(c); |r| == |p| + 1 + |base| && r[..|p| + 1] == p + "_" && r[|p| + 1..] == base
  {
    FilePrefix(c) + "_" + base
  }

  /** Without separators in the batch name and base name, a configuration file name is one path component. */
  lemma ConfigFileIsComponent(c: BatchConfig, base: string)
    requires '/' !in c.batchName && '/' !in base
    ensures IsComponent(ConfigFile(c, base))
  {
    var digits := IntToString(c.batchNum);
    assert forall k :: 0 <= k < |digits| ==> digits[k] != '/';
    assert ConfigFile(c, base) == c.batchName + "(" + digits + ")" + "_" + base;
  }

  /** `config_filename`: the run's YAML file. */
  function ConfigFilename(c: BatchConfig): (r: string)
    ensures var p := FilePrefix(c); |r| == |p| + 1 + |c.configYaml| && r[..|p| + 1] == p + "_" && r[|p| + 1..] == c.configYaml
  {
    ConfigFile(c, c.configYaml)
  }

  /** The batch's pattern matches the YAML file of its run. */
  lemma ConfigFilenameMatchesPattern(c: BatchConfig)
    requires Literal(c.batchName) && Literal(c.configYaml)
    ensures Match(ConfigFilePattern(c), ConfigFilename(c))
  {
    var r := ConfigFilename(c);
    var p := FilePrefix(c);
    assert r[|r| - 2 - |c.configYaml|..] == ")_" + c.configYaml by {
      assert r[|r| - 2 - |c.configYaml|..] == [p[|p| - 1]] + "_" + c.configYaml;
    }
    assert r[..|c.batchName| + 1] == p[..|c.batchName| + 1];
    ConfigFilePatternMatches(c, r);
  }

  /** `config_jsonfile`: the run's JSON file, named like the YAML file but with the JSON base name. */
  function ConfigJsonfile(c: BatchConfig): (r: string)
    ensures var p := FilePrefix(c); |r| == |p| + 1 + |c.configJson| && r[..|p| + 1] == p + "_" && r[|p| + 1..] == c.configJson
  {
    ConfigFile(c, c.configJson)
  }

  /** `config_filepath`: the YAML file inside the configuration directory, which is created. */
  function ConfigFilepath(c: BatchConfig, fs: FileSystem): (r: Result<Located, IOError>)
    ensures r.Success? <==> ConfigDir(c, fs).Success?
    ensures r.Success? ==> r.value.fs == ConfigDir(c, fs).value.fs
    ensures r.Success? && !AbsoluteName(c) ==> ConfigDirPath(c) <= r.value.path
    ensures r.Success? && !AbsoluteName(c) ==> r.value.path == ConfigDirPath(c) + Parts(ConfigFilename(c))
    ensures r.Success? && AbsoluteName(c) ==> IsAbsolute(r.value.path) && r.value.path == Parse(ConfigFilename(c))
    ensures r.Success? && '/' !in c.batchName && '/' !in c.configYaml ==>
              r.value.path == ConfigDirPath(c) + [ConfigFilename(c)]
  {
    var dir :- ConfigDir(c, fs);
    var name := ConfigFilename(c);
    assert '/' !in c.batchName && '/' !in c.configYaml ==> IsComponent(name) by {
      if '/' !in c.batchName && '/' !in c.configYaml {
        ConfigFileIsComponent(c, c.configYaml);
      }
    }
    Success(Located(Join(dir.path, name), dir.fs))
  }

  /** `config_jsonpath`: the JSON file inside the configuration directory, which is created. */
  function ConfigJsonpath(c: BatchConfig, fs: FileSystem): (r: Result<Located, IOError>)
    ensures r.Success? <==> ConfigDir(c, fs).Success?
    ensures r.Success? ==> r.value.fs == ConfigDir(c, fs).value.fs
    ensures r.Success? && !AbsoluteName(c) ==> ConfigDirPath(c) <= r.value.path
    ensures r.Success? && !AbsoluteName(c) ==> r.value.path == ConfigDirPath(c) + Parts(ConfigJsonfile(c))
    ensures r.Success? && AbsoluteName(c) ==> IsAbsolute(r.value.path) && r.value.path == Parse(ConfigJsonfile(c))
    ensures r.Success? && '/' !in c.batchName && '/' !in c.configJson ==>
              r.value.path == ConfigDirPath(c) + [ConfigJsonfile(c)]
  {
    var dir :- ConfigDir(c, fs);
    var name := ConfigJsonfile(c);
    assert '/' !in c.batchName && '/' !in c.configJson ==> IsComponent(name) by {
      if '/' !in c.batchName && '/' !in c.configJson {
        ConfigFileIsComponent(c, c.configJson);
      }
    }
    Success(Located(Join(dir.path, name), dir.fs))
  }

  // ---------------------------------------------------------------------
  // Batch number resolution

  /** A configuration together with the file system after the step that produced it. */
  datatype Step = Step(config: BatchConfig, fs: FileSystem)

  /** How many entries `config_dir.glob(config_filepattern)` yields. */
  function ExistingRuns(c: BatchConfig, fs: FileSystem): nat {
    CountMatching(fs, ConfigDirPath(c), ConfigFilePattern(c))
  }

  /**
    `set_batch_num` as `__init__` calls it. A given number (0 or more) is kept
    and nothing is looked at; an unset one becomes the count `n` of entries the
    batch's pattern selects in the configuration directory, or `n - 1` when
    resuming the latest run and `n > 0`. A batch name that starts with `/`
    makes the pattern absolute, which `Path.glob` refuses.
   */
  function SetBatchNum(c: BatchConfig, fs: FileSystem): (r: Result<Step, IOError>)
    ensures c.batchNum >= 0 ==> r == Success(Step(c, fs))
    ensures c.batchNum < 0 ==>
              (r.Success? <==> ConfigDir(c, fs).Success? && !AbsoluteName(c))
    ensures c.batchNum < 0 && ConfigDir(c, fs).Failure? ==> r.Failure? && r.error == ConfigDir(c, fs).error
    ensures c.batchNum < 0 && ConfigDir(c, fs).Success? && AbsoluteName(c) ==>
              r == Failure(UnsupportedPattern(ConfigFilePattern(c)))
    ensures r.Success? ==> r.value.config.batchNum >= 0
    ensures r.Success? ==> r.value.config == c.(batchNum := r.value.config.batchNum)
    ensures r.Success? ==> Grows(fs, r.value.fs)
    ensures c.batchNum < 0 && r.Success? ==> r.value.fs == ConfigDir(c, fs).value.fs
    ensures c.batchNum < 0 && r.Success? ==>
              var n := ExistingRuns(c, r.value.fs);
              && (!c.resumeLatest ==> r.value.config.batchNum == n)
              && (c.resumeLatest && n > 0 ==> r.value.config.batchNum == n - 1)
              && (c.resumeLatest && n == 0 ==> r.value.config.batchNum == 0)
  {
    if c.batchNum < 0 then
      var dir :- ConfigDir(c, fs);
      var found :- PathGlob(dir.fs, dir.path, ConfigFilePattern(c));
      var n := |found|;
      Success(Step(c.(batchNum := if c.resumeLatest && n > 0 then n - 1 else n), dir.fs))
    else
      Success(Step(c, fs))
  }

  /** `BatchConfig(**data)`: validation, then batch number resolution. */
  function Build(args: BatchArgs, fs: FileSystem, draw: int): (r: Result<Step, IOError>)
    requires 0 <= draw <= MaxSeed
    ensures r.Success? ==> r.value.config.batchNum >= 0 && r.value.config.seed >= 0
    ensures r.Success? ==> r.value.config.batchName == args.batchName
    ensures args.batchNum.Some? && args.batchNum.value >= 0 ==>
              r.Success? && r.value.fs == fs && r.value.config.batchNum == args.batchNum.value
  {
    SetBatchNum(Validate(args, draw), fs)
  }
}

=== FILE: batch_properties.dfy ===
/**
  Properties that relate several operations of the batch configuration:
  the defaults, repeated directory set-up, repeated resolution, injectivity
  of the file names, and a run that writes its configuration file followed
  by the run after it.
 */
module BatchProperties {
  import opened Results
  import opened Decimal
  import opened Glob
  import opened Paths
  import opened Batch

  /**
    A configuration given only its name: the number is left for the scan,
    the seed is the draw, there is no suffix or extension, and runs are not
    resumed.
   */
  lemma DefaultsOf(name: string, draw: int)
    requires 0 <= draw <= MaxSeed
    ensures var c := Validate(DefaultArgs(name), draw);
            && c.batchNum == -1 && c.seed == draw
            && c.outputSuffix == "" && c.outputExtention == ""
            && !c.resumeLatest
  {
  }

  /** With the defaults the scan looks for `name(*)_config.yaml` in `outputs/configs`. */
  lemma DefaultScan(name: string, draw: int)
    requires 0 <= draw <= MaxSeed
    ensures var c := Validate(DefaultArgs(name), draw);
            && ConfigDirPath(c) == ["outputs", "configs"]
            && ConfigFilePattern(c) == name + "(*)_config.yaml"
  {
    var c := Validate(DefaultArgs(name), draw);
    DefaultDirs(c);
    DefaultPattern(c);
  }

  lemma DefaultDirs(c: BatchConfig)
    requires c.batchRoot == "outputs" && c.configDirname == "configs"
    ensures ConfigDirPath(c) == ["outputs", "configs"]
  {
    assert IsComponent("outputs") && IsComponent("configs");
  }

  lemma DefaultPattern(c: BatchConfig)
    requires c.configYaml == "config.yaml"
    ensures ConfigFilePattern(c) == c.batchName + "(*)_config.yaml"
  {
    DefaultPatternText(c.batchName);
  }

  lemma DefaultPatternText(a: string)
    ensures (a + "(") + ("*" + (")_" + "config.yaml")) == a + "(*)_config.yaml"
  {
    assert "(" + ("*" + (")_" + "config.yaml")) == "(*)_config.yaml";
    assert (a + "(") + ("*" + (")_" + "config.yaml")) == a + ("(" + ("*" + (")_" + "config.yaml")));
  }

  /** Reading `config_dir` a second time returns the same path and creates nothing more. */
  lemma ConfigDirIdempotent(c: BatchConfig, fs: FileSystem)
    requires ConfigDir(c, fs).Success?
    ensures ConfigDir(c, ConfigDir(c, fs).value.fs) == ConfigDir(c, fs)
  {
    var root := RootDir(c);
    var fs1 := EnsureDir(fs, root).value;
    var fs2 := EnsureDir(fs1, ConfigDirPath(c)).value;
    assert ConfigDir(c, fs).value.fs == fs2;
    EnsureDirExisting(fs2, root);
    EnsureDirIdempotent(fs1, ConfigDirPath(c));
  }

  /** An unset number is resolved from what `config_dir` returns. */
  lemma SetBatchNumFromScan(c: BatchConfig, fs: FileSystem, dir: Located)
    requires c.batchNum < 0 && ConfigDir(c, fs) == Success(dir) && !AbsoluteName(c)
    ensures var n := CountMatching(dir.fs, dir.path, ConfigFilePattern(c));
            SetBatchNum(c, fs) == Success(Step(c.(batchNum := if c.resumeLatest && n > 0 then n - 1 else n), dir.fs))
  {
    ScanKeepsDisk(c, fs, dir);
    ScanNumber(c, fs, dir);
    var r := SetBatchNum(c, fs);
    assert r == Success(Step(r.value.config, r.value.fs));
  }

  /** The resolution keeps the disk `config_dir` left. */
  lemma ScanKeepsDisk(c: BatchConfig, fs: FileSystem, dir: Located)
    requires c.batchNum < 0 && ConfigDir(c, fs) == Success(dir) && !AbsoluteName(c)
    ensures SetBatchNum(c, fs).Success? && SetBatchNum(c, fs).value.fs == dir.fs
  {
  }

  /** The resolved number comes from the count over that disk. */
  lemma ScanNumber(c: BatchConfig, fs: FileSystem, dir: Located)
    requires c.batchNum < 0 && ConfigDir(c, fs) == Success(dir) && !AbsoluteName(c)
    ensures var n := CountMatching(dir.fs, dir.path, ConfigFilePattern(c));
            SetBatchNum(c, fs).Success? &&
            SetBatchNum(c, fs).value.config == c.(batchNum := if c.resumeLatest && n > 0 then n - 1 else n)
  {
    var r := SetBatchNum(c, fs);
    assert r.Success? && r.value.fs == dir.fs && dir.path == ConfigDirPath(c);
    assert ExistingRuns(c, r.value.fs) == CountMatching(dir.fs, dir.path, ConfigFilePattern(c));
  }

  /** An unset number is resolved from the count of runs, once `config_dir` has nothing left to create. */
  lemma ResolvedByCount(c: BatchConfig, fs: FileSystem, n: nat)
    requires c.batchNum < 0 && !AbsoluteName(c)
    requires ConfigDir(c, fs) == Success(Located(ConfigDirPath(c), fs)) && ExistingRuns(c, fs) == n
    ensures SetBatchNum(c, fs) == Success(Step(c.(batchNum := if c.resumeLatest && n > 0 then n - 1 else n), fs))
  {
    SetBatchNumFromScan(c, fs, Located(ConfigDirPath(c), fs));
  }

  /** Resolution happens once: resolving an already resolved configuration changes nothing. */
  lemma SetBatchNumIdempotent(c: BatchConfig, fs: FileSystem)
    requires SetBatchNum(c, fs).Success?
    ensures var s := SetBatchNum(c, fs).value; SetBatchNum(s.config, s.fs) == Success(s)
  {
  }

  /** Two configurations that agree on root, directory name, batch name and YAML base name scan alike. */
  lemma SameScan(c1: BatchConfig, c2: BatchConfig, fs: FileSystem)
    requires c1.batchRoot == c2.batchRoot && c1.configDirname == c2.configDirname
    requires c1.batchName == c2.batchName && c1.configYaml == c2.configYaml
    ensures ConfigDirPath(c1) == ConfigDirPath(c2) && ConfigDir(c1, fs) == ConfigDir(c2, fs)
    ensures ConfigFilePattern(c1) == ConfigFilePattern(c2)
    ensures ExistingRuns(c1, fs) == ExistingRuns(c2, fs)
  {
    assert RootDir(c1) == RootDir(c2);
    assert ConfigDirPath(c1) == ConfigDirPath(c2);
  }

  /** Any two unset batch numbers are resolved alike: only the sign of the given value matters. */
  lemma UnsetNumbersResolveAlike(c1: BatchConfig, c2: BatchConfig, fs: FileSystem)
    requires c1.batchNum < 0 && c2.batchNum < 0
    requires c1.(batchNum := 0) == c2.(batchNum := 0)
    ensures SetBatchNum(c1, fs) == SetBatchNum(c2, fs)
  {
    SameScan(c1, c2, fs);
    var d := ConfigDir(c1, fs);
    if d.Failure? {
      assert SetBatchNum(c1, fs) == Failure(d.error);
      assert SetBatchNum(c2, fs) == Failure(d.error);
    } else if AbsoluteName(c1) {
      assert AbsoluteName(c2);
    } else {
      SetBatchNumFromScan(c1, fs, d.value);
      SetBatchNumFromScan(c2, fs, d.value);
    }
  }

  /** A missing batch number and a negative one are resolved the same way. */
  lemma MissingAndNegativeNumbersAgree(args: BatchArgs, fs: FileSystem, draw: int, k: int)
    requires 0 <= draw <= MaxSeed && k < 0
    ensures Build(args.(batchNum := None), fs, draw) == Build(args.(batchNum := Some(k)), fs, draw)
  {
    var c1 := Validate(args.(batchNum := None), draw);
    var c2 := Validate(args.(batchNum := Some(k)), draw);
    assert c1.(batchNum := 0) == c2.(batchNum := 0);
    UnsetNumbersResolveAlike(c1, c2, fs);
  }

  /** With random seeding off and a non-negative seed given, the seed does not depend on the draw. */
  lemma SeedIsDeterministic(args: BatchArgs, fs: FileSystem, d1: int, d2: int)
    requires 0 <= d1 <= MaxSeed && 0 <= d2 <= MaxSeed
    requires !args.randomSeed && args.seed >= 0
    ensures Build(args, fs, d1) == Build(args, fs, d2)
  {
    assert Validate(args, d1) == Validate(args, d2);
  }

  /** Validating an already validated suffix or extension leaves it unchanged. */
  lemma ValidationIsStable(suffix: Option<string>, ext: Option<string>)
    ensures ValidateOutputSuffix(Some(ValidateOutputSuffix(suffix))) == ValidateOutputSuffix(suffix)
    ensures ValidateOutputExtention(Some(ValidateOutputExtention(ext))) == ValidateOutputExtention(ext)
  {
    var r := ValidateOutputExtention(ext);
    if r != "" {
      assert TrimLeadingDots(r) == r;
      assert TrimTrailingDots(r) == r;
    }
  }

  /** In `x(d)` with no `(` in `d`, the `(` after `x` is the last one, and it separates `x` from `d`. */
  lemma LastOpenParen(x: string, d: string)
    requires forall k :: 0 <= k < |d| ==> d[k] != '('
    ensures var s := x + "(" + d + ")";
            && s[|x|] == '('
            && (forall k :: |x| < k < |s| ==> s[k] != '(')
            && s[..|x|] == x && s[|x| + 1..|s| - 1] == d
  {
    var s := x + "(" + d + ")";
    assert forall k :: |x| < k < |s| - 1 ==> s[k] == d[k - |x| - 1];
  }

  /** Different batch names or numbers never give the same file prefix. */
  lemma FilePrefixInjective(c1: BatchConfig, c2: BatchConfig)
    requires FilePrefix(c1) == FilePrefix(c2)
    ensures c1.batchName == c2.batchName && c1.batchNum == c2.batchNum
  {
    var x, y := c1.batchName, c2.batchName;
    var d, e := IntToString(c1.batchNum), IntToString(c2.batchNum);
    var s := FilePrefix(c1);
    assert s == x + "(" + d + ")" && s == y + "(" + e + ")";
    LastOpenParen(x, d);
    LastOpenParen(y, e);
    assert |x| == |y|;
    IntToStringInjective(c1.batchNum, c2.batchNum);
  }

  /** The first `)` ends a text without `)`: what comes before and after it is determined. */
  lemma FirstCloseParen(d: string, t: string, e: string, u: string)
    requires forall k :: 0 <= k < |d| ==> d[k] != ')'
    requires forall k :: 0 <= k < |e| ==> e[k] != ')'
    requires d + ")" + t == e + ")" + u
    ensures d == e && t == u
  {
    var s := d + ")" + t;
    assert |e| <= |d| by {
      assert s[|d|] == ')';
    }
    assert |d| <= |e| by {
      assert (e + ")" + u)[|e|] == ')';
    }
    assert d == s[..|d|] == e;
    assert t == s[|d| + 1..] == u;
  }

  /**
    Two runs of one batch never share an output file: the number can be read
    back from the name, whatever the suffix and extension.
   */
  lemma OutputFileNumbersDiffer(c1: BatchConfig, c2: BatchConfig)
    requires c1.batchName == c2.batchName
    requires OutputFile(c1) == OutputFile(c2)
    ensures c1.batchNum == c2.batchNum
  {
    var s := OutputFile(c1);
    NumberAfterName(c1);
    NumberAfterName(c2);
    FirstCloseParen(IntToString(c1.batchNum), s[|FilePrefix(c1)|..], IntToString(c2.batchNum), s[|FilePrefix(c2)|..]);
    IntToStringInjective(c1.batchNum, c2.batchNum);
  }

  /** After the name and `(`, an output file name holds the number, `)` and the rest. */
  lemma NumberAfterName(c: BatchConfig)
    ensures var s, p := OutputFile(c), FilePrefix(c);
            s[|c.batchName| + 1..] == IntToString(c.batchNum) + ")" + s[|p|..]
  {
    var s, p := OutputFile(c), FilePrefix(c);
    var d := IntToString(c.batchNum);
    assert p == c.batchName + "(" + d + ")";
    assert s == p + s[|p|..];
  }

  /** Two runs with the same YAML base name write the same file exactly when batch name and number agree. */
  lemma ConfigFilenameInjective(c1: BatchConfig, c2: BatchConfig)
    requires c1.configYaml == c2.configYaml
    ensures ConfigFilename(c1) == ConfigFilename(c2) <==> c1.batchName == c2.batchName && c1.batchNum == c2.batchNum
  {
    if ConfigFilename(c1) == ConfigFilename(c2) {
      var r, p1, p2 := ConfigFilename(c1), FilePrefix(c1), FilePrefix(c2);
      assert |p1| == |p2|;
      assert p1 + "_" == r[..|p1| + 1] == p2 + "_";
      assert p1 == (p1 + "_")[..|p1|] == (p2 + "_")[..|p2|] == p2;
      FilePrefixInjective(c1, c2);
    }
  }

  lemma UndottedIsTrimmed(e: string)
    requires e != [] && e[0] != '.' && e[|e| - 1] != '.'
    ensures TrimLeadingDots("." + e) == e && TrimLeadingDots(e) == e && TrimTrailingDots(e) == e
  {
    assert ("." + e)[1..] == e;
  }

  /** A leading dot on an extension is optional: ".ext" and "ext" validate alike. */
  lemma LeadingDotIsOptional(e: string)
    requires e != [] && e[0] != '.' && e[|e| - 1] != '.'
    ensures ValidateOutputExtention(Some("." + e)) == e
    ensures ValidateOutputExtention(Some(e)) == e
  {
    UndottedIsTrimmed(e);
  }

  /** The YAML and JSON files of a run share the stem `file_prefix_` and differ exactly when the base names do. */
  lemma ConfigFilesShareStem(c: BatchConfig)
    ensures var k := |FilePrefix(c)| + 1;
            && ConfigFilename(c)[..k] == ConfigJsonfile(c)[..k]
            && (ConfigFilename(c) == ConfigJsonfile(c) <==> c.configYaml == c.configJson)
  {
    var k := |FilePrefix(c)| + 1;
    if c.configYaml == c.configJson {
      assert ConfigFilename(c) == ConfigFilename(c)[..k] + ConfigFilename(c)[k..];
      assert ConfigJsonfile(c) == ConfigJsonfile(c)[..k] + ConfigJsonfile(c)[k..];
    }
  }

  /** The batch's pattern matches the YAML file of every run of the batch, whatever its number. */
  lemma PatternMatchesEveryRun(c: BatchConfig, k: int)
    requires Literal(c.batchName) && Literal(c.configYaml)
    ensures Match(ConfigFilePattern(c), ConfigFilename(c.(batchNum := k)))
  {
    var c' := c.(batchNum := k);
    assert ConfigFilePattern(c') == ConfigFilePattern(c);
    ConfigFilenameMatchesPattern(c');
  }

  /** After a successful `config_dir`, the root and the configuration directory and their ancestors are directories. */
  lemma ConfigDirReady(c: BatchConfig, fs: FileSystem)
    requires ConfigDir(c, fs).Success?
    ensures var fs' := ConfigDir(c, fs).value.fs;
            && (forall i :: 1 <= i <= |RootDir(c)| ==> RootDir(c)[..i] in fs'.dirs && RootDir(c)[..i] !in fs'.files)
            && (forall i :: 1 <= i <= |ConfigDirPath(c)| ==> ConfigDirPath(c)[..i] in fs'.dirs && ConfigDirPath(c)[..i] !in fs'.files)
  {
  }

  /** Adding a file outside the directories `config_dir` needs does not change what `config_dir` does. */
  lemma ConfigDirAfterNewFile(c: BatchConfig, fs: FileSystem, file: Path)
    requires forall i :: 1 <= i <= |RootDir(c)| ==> RootDir(c)[..i] in fs.dirs && RootDir(c)[..i] !in fs.files
    requires forall i :: 1 <= i <= |ConfigDirPath(c)| ==> ConfigDirPath(c)[..i] in fs.dirs && ConfigDirPath(c)[..i] !in fs.files
    requires file !in fs.dirs
    ensures var fs' := fs.(files := fs.files + {file});
            ConfigDir(c, fs') == Success(Located(ConfigDirPath(c), fs'))
  {
    var fs' := fs.(files := fs.files + {file});
    EnsureDirExisting(fs', RootDir(c));
    EnsureDirExisting(fs', ConfigDirPath(c));
  }

  /** The file a resolved run writes its YAML configuration to. */
  function WrittenConfig(c: BatchConfig): Path {
    ConfigDirPath(c) + [ConfigFilename(c)]
  }

  /** `config_filepath` of a resolved run is the file in the configuration directory the next scan looks at. */
  lemma ConfigFilepathOfResolved(c: BatchConfig, fs: FileSystem)
    requires c.batchNum < 0 && '/' !in c.batchName && '/' !in c.configYaml
    requires SetBatchNum(c, fs).Success?
    ensures var s := SetBatchNum(c, fs).value;
            ConfigFilepath(s.config, s.fs) == Success(Located(WrittenConfig(s.config), s.fs))
  {
    var s := SetBatchNum(c, fs).value;
    assert s.fs == ConfigDir(c, fs).value.fs;
    ConfigDirIdempotent(c, fs);
    assert ConfigDirPath(s.config) == ConfigDirPath(c);
    assert ConfigDir(s.config, s.fs) == Success(Located(ConfigDirPath(c), s.fs));
  }

  /** The disk after the run writes its YAML configuration file. */
  function AfterWrite(s: Step): FileSystem {
    s.fs.(files := s.fs.files + {WrittenConfig(s.config)})
  }

  /** The run's YAML file does not exist yet, as file or as directory. */
  predicate WritesNewFile(s: Step) {
    WrittenConfig(s.config) !in s.fs.dirs && WrittenConfig(s.config) !in s.fs.files
  }

  /** Writing a run's YAML file, when it is new, adds one to the count of the batch's runs. */
  lemma WrittenConfigIsCounted(c: BatchConfig, fs: FileSystem, s: Step)
    requires c.batchNum < 0
    requires Literal(c.batchName) && Literal(c.configYaml)
    requires '/' !in c.batchName && '/' !in c.configYaml
    requires SetBatchNum(c, fs) == Success(s) && WritesNewFile(s)
    ensures ConfigDir(c, AfterWrite(s)) == Success(Located(ConfigDirPath(c), AfterWrite(s)))
    ensures ExistingRuns(c, AfterWrite(s)) == ExistingRuns(c, s.fs) + 1
  {
    var dir := ConfigDirPath(c);
    var pattern := ConfigFilePattern(c);
    var name := ConfigFilename(s.config);
    assert s.fs == ConfigDir(c, fs).value.fs;
    assert WrittenConfig(s.config) == dir + [name];
    ConfigDirReady(c, fs);
    ConfigDirAfterNewFile(c, s.fs, dir + [name]);
    assert Match(pattern, name) by {
      assert ConfigFilePattern(s.config) == pattern;
      ConfigFilenameMatchesPattern(s.config);
    }
    var fs' := AfterWrite(s);
    GlobOneComponent(fs', dir, pattern);
    assert dir + [name] in Selected(fs', dir, Parts(pattern));
    CountAfterNewFile(s.fs, dir, pattern, dir + [name]);
  }

  /**
    A fresh run that then writes its YAML file into the configuration
    directory is followed by a fresh run numbered one higher.
   */
  lemma NextFreshRunAfterWrite(c: BatchConfig, fs: FileSystem, s: Step)
    requires c.batchNum < 0 && !c.resumeLatest
    requires Literal(c.batchName) && Literal(c.configYaml)
    requires '/' !in c.batchName && '/' !in c.configYaml
    requires SetBatchNum(c, fs) == Success(s) && WritesNewFile(s)
    ensures SetBatchNum(c, AfterWrite(s)) == Success(Step(c.(batchNum := s.config.batchNum + 1), AfterWrite(s)))
  {
    WrittenConfigIsCounted(c, fs, s);
    ResolvedByCount(c, AfterWrite(s), s.config.batchNum + 1);
  }

  /** After the write, a resume-latest configuration of the same batch counts one run more than the writer saw. */
  lemma ResumeSeesWrite(c: BatchConfig, fs: FileSystem, s: Step)
    requires c.batchNum < 0
    requires Literal(c.batchName) && Literal(c.configYaml)
    requires '/' !in c.batchName && '/' !in c.configYaml
    requires SetBatchNum(c, fs) == Success(s) && WritesNewFile(s)
    ensures var c' := c.(resumeLatest := true);
            && ConfigDir(c', AfterWrite(s)) == Success(Located(ConfigDirPath(c'), AfterWrite(s)))
            && ExistingRuns(c', AfterWrite(s)) == ExistingRuns(c, s.fs) + 1
  {
    WrittenConfigIsCounted(c, fs, s);
    SameScan(c, c.(resumeLatest := true), AfterWrite(s));
  }

  /**
    A fresh run that then writes its YAML file into the configuration
    directory is followed by a resume-latest run that reattaches to it.
   */
  lemma ResumeAfterWriteReattaches(c: BatchConfig, fs: FileSystem, s: Step)
    requires c.batchNum < 0 && !c.resumeLatest
    requires Literal(c.batchName) && Literal(c.configYaml)
    requires '/' !in c.batchName && '/' !in c.configYaml
    requires SetBatchNum(c, fs) == Success(s) && WritesNewFile(s)
    ensures SetBatchNum(c.(resumeLatest := true), AfterWrite(s))
              == Success(Step(c.(batchNum := s.config.batchNum, resumeLatest := true), AfterWrite(s)))
  {
    ResumeSeesWrite(c, fs, s);
    ResolvedByCount(c.(resumeLatest := true), AfterWrite(s), s.config.batchNum + 1);
  }
}

=== FILE: decimal.dfy ===
/**
  Python's `str(int)` (used by the f-string `f"{batch_num}"`) and its inverse.
  Integers are rendered in base ten, with a leading `-` for negatives and
  without leading zeros.
 */
module Decimal {
  import opened Results

  predicate IsDigit(c: char) {
    '0' <= c <= '9'
  }

  /** A non-empty string of decimal digits. */
  predicate IsDigits(s: string) {
    |s| > 0 && forall i :: 0 <= i < |s| ==> IsDigit(s[i])
  }

  /** The form `str` produces for a natural number: no leading zeros except "0" itself. */
  predicate IsCanonical(s: string) {
    IsDigits(s) && (s[0] != '0' || |s| == 1)
  }

  function DigitValue(c: char): (d: nat)
    requires IsDigit(c)
    ensures d < 10
  {
    c as int - '0' as int
  }

  function DigitChar(d: nat): (c: char)
    requires d < 10
    ensures IsDigit(c) && DigitValue(c) == d
  {
    ('0' as int + d) as char
  }

  /** The decimal rendering of a natural number. */
  function NatToString(n: nat): (s: string)
    ensures IsCanonical(s)
    ensures s[0] == '0' <==> n == 0
  {
    if n < 10 then [DigitChar(n)] else NatToString(n / 10) + [DigitChar(n % 10)]
  }

  /** The number a string of digits denotes. */
  function DigitsValue(s: string): nat
    requires IsDigits(s)
    decreases |s|
  {
    if |s| == 1 then DigitValue(s[0])
    else
      assert IsDigits(s[..|s| - 1]);
      10 * DigitsValue(s[..|s| - 1]) + DigitValue(s[|s| - 1])
  }

  /** Python's `str` on integers. */
  function IntToString(i: int): (s: string)
    ensures |s| > 0
    ensures forall k :: 0 <= k < |s| ==> IsDigit(s[k]) || s[k] == '-'
    ensures s[0] == '-' <==> i < 0
  {
    if i < 0 then "-" + NatToString(-i) else NatToString(i)
  }

  /** Reads back exactly the strings `IntToString` produces. */
  function ParseInt(s: string): Option<int> {
    if |s| > 1 && s[0] == '-' && IsCanonical(s[1..]) && s[1..] != "0" then Some(0 - DigitsValue(s[1..]) as int)
    else if IsCanonical(s) then Some(DigitsValue(s) as int)
    else None
  }

  lemma {:induction false} DigitsValueOfNatToString(n: nat)
    ensures DigitsValue(NatToString(n)) == n
  {
    if n >= 10 {
      var init := NatToString(n / 10);
      var s := NatToString(n);
      assert s == init + [DigitChar(n % 10)];
      assert s[..|s| - 1] == init;
      DigitsValueOfNatToString(n / 10);
    }
  }

  lemma {:induction false} LeadingDigitIsPositive(s: string)
    requires IsDigits(s) && s[0] != '0'
    ensures DigitsValue(s) >= 1
    decreases |s|
  {
    if |s| > 1 {
      var init := s[..|s| - 1];
      assert IsDigits(init) && init[0] == s[0];
      LeadingDigitIsPositive(init);
    }
  }

  lemma {:induction false} NatToStringOfDigitsValue(s: string)
    requires IsCanonical(s)
    ensures NatToString(DigitsValue(s)) == s
    decreases |s|
  {
    if |s| > 1 {
      var init := s[..|s| - 1];
      var d := DigitValue(s[|s| - 1]);
      assert IsCanonical(init) && init[0] == s[0];
      LeadingDigitIsPositive(init);
      NatToStringOfDigitsValue(init);
      var v := DigitsValue(s);
      assert v == 10 * DigitsValue(init) + d;
      assert v / 10 == DigitsValue(init) && v % 10 == d;
      assert DigitChar(d) == s[|s| - 1];
      assert s == init + [s[|s| - 1]];
    }
  }

  /** Parsing undoes rendering. */
  lemma IntToStringRoundTrip(i: int)
    ensures ParseInt(IntToString(i)) == Some(i)
  {
    if i < 0 {
      var t := NatToString(-i);
      assert IntToString(i)[1..] == t;
      DigitsValueOfNatToString(-i);
    } else {
      DigitsValueOfNatToString(i);
    }
  }

  /** Rendering undoes parsing: a string that parses is the canonical rendering. */
  lemma ParseIntRoundTrip(s: string, i: int)
    requires ParseInt(s) == Some(i)
    ensures IntToString(i) == s
  {
    if |s| > 1 && s[0] == '-' && IsCanonical(s[1..]) && s[1..] != "0" {
      NatToStringOfDigitsValue(s[1..]);
      LeadingDigitIsPositive(s[1..]);
      assert s == "-" + s[1..];
    } else {
      NatToStringOfDigitsValue(s);
    }
  }

  /** Distinct integers render differently. */
  lemma IntToStringInjective(i: int, j: int)
    requires IntToString(i) == IntToString(j)
    ensures i == j
  {
    IntToStringRoundTrip(i);
    IntToStringRoundTrip(j);
  }
}

=== FILE: glob.dfy ===
/**
  The shell-style matching `Path.glob` applies to each directory entry's name:
  `*` matches any run of characters, `?` any single character, every other
  character itself. Character classes (`[...]`) are not part of this model.
 */
module Glob {

  predicate IsMeta(c: char) {
    c == '*' || c == '?' || c == '['
  }

  /** A pattern fragment with no wildcard, which can only match itself. */
  predicate Literal(s: string) {
    forall i :: 0 <= i < |s| ==> !IsMeta(s[i])
  }

  predicate Match(pattern: string, name: string)
    decreases |pattern| + |name|
  {
    if pattern == [] then name == []
    else if pattern[0] == '*' then
      Match(pattern[1..], name) || (name != [] && Match(pattern, name[1..]))
    else
      name != [] && (pattern[0] == '?' || pattern[0] == name[0]) && Match(pattern[1..], name[1..])
  }

  /** A literal head of a pattern must be matched character for character. */
  lemma {:induction false} LiteralPrefixMatch(a: string, rest: string, name: string)
    requires Literal(a)
    ensures Match(a + rest, name) <==> |a| <= |name| && name[..|a|] == a && Match(rest, name[|a|..])
    decreases |a|
  {
    if a == [] {
      assert a + rest == rest;
    } else {
      var p := a + rest;
      assert p[0] == a[0] && !IsMeta(a[0]);
      assert p[1..] == a[1..] + rest;
      if name != [] {
        LiteralPrefixMatch(a[1..], rest, name[1..]);
        if |a| <= |name| {
          assert name[..|a|] == [name[0]] + name[1..][..|a| - 1];
          assert a == [a[0]] + a[1..];
          assert name[|a|..] == name[1..][|a| - 1..];
        }
      }
    }
  }

  /** A pattern without wildcards matches exactly one name: itself. */
  lemma {:induction false} LiteralMatchIsEquality(a: string, name: string)
    requires Literal(a)
    ensures Match(a, name) <==> name == a
  {
    LiteralPrefixMatch(a, [], name);
    assert a + [] == a;
    if |a| <= |name| && name[..|a|] == a && name[|a|..] == [] {
      assert name == name[..|a|] + name[|a|..];
    }
  }

  /** `*` followed by a literal matches exactly the names ending in that literal. */
  lemma {:induction false} StarSuffixMatch(b: string, name: string)
    requires Literal(b)
    ensures Match("*" + b, name) <==> |b| <= |name| && name[|name| - |b|..] == b
    decreases |name|
  {
    var p := "*" + b;
    assert p[0] == '*' && p[1..] == b;
    LiteralMatchIsEquality(b, name);
    if name != [] {
      StarSuffixMatch(b, name[1..]);
      if |b| < |name| {
        assert name[|name| - |b|..] == name[1..][|name| - 1 - |b|..];
      }
    }
  }

  /**
    A one-star pattern `a*b` with literal `a` and `b` matches exactly the names
    that start with `a`, end with `b`, and are long enough for both.
   */
  lemma {:induction false} OneStarMatch(a: string, b: string, name: string)
    requires Literal(a) && Literal(b)
    ensures Match(a + ("*" + b), name) <==>
            |a| + |b| <= |name| && name[..|a|] == a && name[|name| - |b|..] == b
  {
    var star := "*" + b;
    var m := Match(a + star, name);
    LiteralPrefixMatch(a, star, name);
    if |a| <= |name| && name[..|a|] == a {
      var tail := name[|a|..];
      assert m == Match(star, tail);
      StarSuffixMatch(b, tail);
      assert m == (|b| <= |tail| && tail[|tail| - |b|..] == b);
      if |b| <= |tail| {
        assert tail[|tail| - |b|..] == name[|name| - |b|..];
      }
      assert m == (|a| + |b| <= |name| && name[|name| - |b|..] == b);
    } else {
      assert !m;
    }
  }
}

=== FILE: paths.dfy ===
/**
  The part of `pathlib` and of the file system the batch configuration relies
  on: turning a string into a path, joining with `/`, creating a directory
  with `mkdir(parents=True, exist_ok=True)`, and counting the entries of a
  directory whose names match a glob pattern.
 */
module Paths {
  import opened Results
  import opened Glob

  /** A path as its sequence of components; an absolute path starts with `Root`. */
  type Path = seq<string>

  const Root: string := "/"

  /** A component as `pathlib` keeps it: no separator, not empty, not ".". */
  predicate IsComponent(c: string) {
    c != "" && c != "." && '/' !in c
  }

  predicate IsNormal(p: Path) {
    forall i :: 0 <= i < |p| ==> IsComponent(p[i]) || (i == 0 && p[i] == Root)
  }

  predicate IsAbsolute(p: Path) {
    |p| > 0 && p[0] == Root
  }

  /** The pieces of `s` between separators, empty pieces included. */
  function Split(s: string): (parts: seq<string>)
    ensures |parts| >= 1
    ensures forall i :: 0 <= i < |parts| ==> '/' !in parts[i]
    decreases |s|
  {
    if s == [] then [[]]
    else
      var rest := Split(s[1..]);
      if s[0] == '/' then [[]] + rest
      else [[s[0]] + rest[0]] + rest[1..]
  }

  /** The pieces put back together with separators. */
  function Unsplit(parts: seq<string>): string
    requires |parts| >= 1
  {
    if |parts| == 1 then parts[0] else parts[0] + "/" + Unsplit(parts[1..])
  }

  /** Splitting loses nothing: the separators can be put back. */
  lemma {:induction false} SplitRoundTrip(s: string)
    ensures Unsplit(Split(s)) == s
    decreases |s|
  {
    if s != [] {
      var rest := Split(s[1..]);
      SplitRoundTrip(s[1..]);
      if s[0] == '/' {
        assert ([[]] + rest)[1..] == rest;
        assert s == [] + "/" + s[1..];
      } else {
        var parts := [[s[0]] + rest[0]] + rest[1..];
        if |rest| == 1 {
          assert s == [s[0]] + s[1..];
        } else {
          assert parts[1..] == rest[1..];
          assert Unsplit(rest) == rest[0] + "/" + Unsplit(rest[1..]);
          assert s == [s[0]] + s[1..];
        }
      }
    }
  }

  /** The components `pathlib` keeps: empty pieces (repeated separators) and "." go. */
  function Components(parts: seq<string>): (p: Path)
    requires forall i :: 0 <= i < |parts| ==> '/' !in parts[i]
    ensures forall i :: 0 <= i < |p| ==> IsComponent(p[i])
    ensures forall c :: c in p <==> c in parts && IsComponent(c)
  {
    if parts == [] then []
    else if IsComponent(parts[0]) then [parts[0]] + Components(parts[1..])
    else Components(parts[1..])
  }

  /** The components of `s` as `pathlib` parses them, whether or not `s` starts with a separator. */
  function Parts(s: string): (p: Path)
    ensures forall i :: 0 <= i < |p| ==> IsComponent(p[i])
    ensures IsComponent(s) ==> p == [s]
  {
    var parts := Split(s);
    assert IsComponent(s) ==> Components(parts) == [s] by {
      if IsComponent(s) {
        SplitOfComponent(s);
        assert [s][1..] == [];
      }
    }
    Components(parts)
  }

  /** `Path(s)`: a leading separator makes the path absolute. */
  function Parse(s: string): (p: Path)
    ensures IsNormal(p)
    ensures IsAbsolute(p) <==> |s| > 0 && s[0] == '/'
    ensures IsComponent(s) ==> p == [s]
  {
    if |s| > 0 && s[0] == '/' then [Root] + Parts(s) else Parts(s)
  }

  /** `p / s`: an absolute right-hand side replaces the left-hand side. */
  function Join(p: Path, s: string): (q: Path)
    ensures IsNormal(p) ==> IsNormal(q)
    ensures !(|s| > 0 && s[0] == '/') ==> |p| <= |q| && q[..|p|] == p
    ensures !(|s| > 0 && s[0] == '/') ==> q == p + Parts(s)
    ensures |s| > 0 && s[0] == '/' ==> q == Parse(s)
    ensures IsComponent(s) ==> q == p + [s]
  {
    var tail := Parse(s);
    if |s| > 0 && s[0] == '/' then tail else p + tail
  }

  lemma {:induction false} SplitOfComponent(c: string)
    requires '/' !in c
    ensures Split(c) == [c]
    decreases |c|
  {
    if c != [] {
      SplitOfComponent(c[1..]);
      assert c == [c[0]] + c[1..];
    }
  }

  /** A separator after a piece without separators ends that piece. */
  lemma {:induction false} SplitAfterPiece(a: string, t: string)
    requires '/' !in a
    ensures Split(a + "/" + t) == [a] + Split(t)
    decreases |a|
  {
    var s := a + "/" + t;
    if a == [] {
      assert s[1..] == t;
    } else {
      assert s[1..] == a[1..] + "/" + t;
      SplitAfterPiece(a[1..], t);
      assert [a[0]] + a[1..] == a;
    }
  }

  /** Components written out with separators split back into the same components. */
  lemma {:induction false} SplitOfUnsplit(cs: seq<string>)
    requires |cs| >= 1 && forall i :: 0 <= i < |cs| ==> '/' !in cs[i]
    ensures Split(Unsplit(cs)) == cs
    decreases |cs|
  {
    if |cs| == 1 {
      SplitOfComponent(cs[0]);
    } else {
      SplitOfUnsplit(cs[1..]);
      SplitAfterPiece(cs[0], Unsplit(cs[1..]));
      assert [cs[0]] + cs[1..] == cs;
    }
  }

  lemma {:induction false} ComponentsOfComponents(cs: seq<string>)
    requires forall i :: 0 <= i < |cs| ==> IsComponent(cs[i])
    ensures forall i :: 0 <= i < |cs| ==> '/' !in cs[i]
    ensures Components(cs) == cs
    decreases |cs|
  {
    if cs != [] {
      ComponentsOfComponents(cs[1..]);
      assert [cs[0]] + cs[1..] == cs;
    }
  }

  /** Parsing the string a relative path prints as gives the path back. */
  lemma {:induction false} ParseOfUnsplit(cs: seq<string>)
    requires |cs| >= 1 && forall i :: 0 <= i < |cs| ==> IsComponent(cs[i])
    ensures Parse(Unsplit(cs)) == cs
  {
    SplitOfUnsplit(cs);
    ComponentsOfComponents(cs);
    var s := Unsplit(cs);
    assert s[0] == cs[0][0] by {
      if |cs| > 1 {
        assert s == cs[0] + ("/" + Unsplit(cs[1..]));
      }
    }
  }

  /** The file system: which paths are directories and which are files. */
  datatype FileSystem = FileSystem(dirs: set<Path>, files: set<Path>)

  datatype IOError =
    /** `mkdir` found a file where the directory or one of its ancestors should be. */
    | FileInTheWay(path: Path)
    /** `Path.glob` raised on an empty pattern or one that starts at the root. */
    | UnsupportedPattern(pattern: string)

  predicate AncestorsAreDirs(fs: FileSystem, p: Path) {
    forall i :: 1 <= i < |p| ==> p[..i] in fs.dirs
  }

  /** Nothing is both a file and a directory, and every entry sits in a directory. */
  predicate WellFormed(fs: FileSystem) {
    && fs.dirs !! fs.files
    && (forall p :: p in fs.dirs ==> AncestorsAreDirs(fs, p))
    && (forall p :: p in fs.files ==> AncestorsAreDirs(fs, p))
  }

  /** `p` and its ancestors. */
  function Prefixes(p: Path): set<Path> {
    set i | 1 <= i <= |p| :: p[..i]
  }

  /** A file sits at `p` or at one of its ancestors. */
  predicate Blocked(fs: FileSystem, p: Path) {
    exists i :: 1 <= i <= |p| && p[..i] in fs.files
  }

  /** `Path.mkdir(parents=True, exist_ok=True)`. */
  function EnsureDir(fs: FileSystem, p: Path): (r: Result<FileSystem, IOError>)
    ensures r.Failure? <==> Blocked(fs, p)
    ensures r.Failure? ==> r.error == FileInTheWay(p)
    ensures r.Success? ==> r.value.files == fs.files && fs.dirs <= r.value.dirs
    ensures r.Success? ==> forall i :: 1 <= i <= |p| ==> p[..i] in r.value.dirs
    ensures r.Success? ==> p == [] || p in r.value.dirs
    ensures r.Success? ==> forall q :: q in r.value.dirs && q !in fs.dirs ==> 0 < |q| <= |p| && q == p[..|q|]
    ensures r.Success? && WellFormed(fs) ==> WellFormed(r.value)
  {
    if Blocked(fs, p) then Failure(FileInTheWay(p))
    else
      var fs' := fs.(dirs := fs.dirs + Prefixes(p));
      assert forall i :: 1 <= i <= |p| ==> p[..i] in Prefixes(p);
      assert p != [] ==> p[..|p|] == p;
      assert forall q :: q in Prefixes(p) ==> AncestorsAreDirs(fs', q) by {
        forall q | q in Prefixes(p)
          ensures AncestorsAreDirs(fs', q)
        {
          var k :| 1 <= k <= |p| && q == p[..k];
          forall i | 1 <= i < |q|
            ensures q[..i] in fs'.dirs
          {
            assert q[..i] == p[..i];
          }
        }
      }
      Success(fs')
  }

  /** Creating a directory a second time changes nothing and does not fail. */
  lemma EnsureDirIdempotent(fs: FileSystem, p: Path)
    requires EnsureDir(fs, p).Success?
    ensures EnsureDir(EnsureDir(fs, p).value, p) == EnsureDir(fs, p)
  {
    var fs' := EnsureDir(fs, p).value;
    assert Prefixes(p) <= fs'.dirs;
    assert fs'.dirs + Prefixes(p) == fs'.dirs;
  }

  /** A directory whose ancestors all exist already is left as it is. */
  lemma EnsureDirExisting(fs: FileSystem, p: Path)
    requires forall i :: 1 <= i <= |p| ==> p[..i] in fs.dirs && p[..i] !in fs.files
    ensures EnsureDir(fs, p) == Success(fs)
  {
    assert fs.dirs + Prefixes(p) == fs.dirs;
  }

  /** The path denotes an existing directory; the empty path is the working directory. */
  predicate IsDir(fs: FileSystem, p: Path) {
    p == [] || p in fs.dirs
  }

  /** `Path.glob` refuses an empty pattern and a pattern that starts at the root. */
  predicate IsGlobbable(pattern: string) {
    pattern != "" && pattern[0] != '/'
  }

  /**
    `e` lies below the existing directory `dir`, one name per segment, each
    name matching its segment; every entry on the way down is a directory,
    and `e` itself exists.
   */
  predicate Selects(fs: FileSystem, dir: Path, segments: seq<string>, e: Path) {
    && IsDir(fs, dir)
    && |e| == |dir| + |segments| && e[..|dir|] == dir
    && (forall i :: 0 <= i < |segments| ==> Match(segments[i], e[|dir| + i]))
    && (forall i :: |dir| < i < |e| ==> e[..i] in fs.dirs)
    && (IsDir(fs, e) || e in fs.files)
  }

  /** The entries the segments select below `dir`. */
  function Selected(fs: FileSystem, dir: Path, segments: seq<string>): set<Path> {
    set e | e in fs.dirs + fs.files + {dir} && Selects(fs, dir, segments, e)
  }

  /** `dir.glob(pattern)`: the pattern's components are matched one directory level each. */
  function PathGlob(fs: FileSystem, dir: Path, pattern: string): (r: Result<set<Path>, IOError>)
    ensures r.Failure? <==> !IsGlobbable(pattern)
    ensures r.Failure? ==> r.error == UnsupportedPattern(pattern)
    ensures r.Success? ==> forall e :: e in r.value <==> Selects(fs, dir, Parts(pattern), e)
  {
    if !IsGlobbable(pattern) then Failure(UnsupportedPattern(pattern))
    else
      var found := Selected(fs, dir, Parts(pattern));
      assert forall e :: e in found <==> Selects(fs, dir, Parts(pattern), e) by {
        forall e | Selects(fs, dir, Parts(pattern), e) ensures e in found {
          assert e in fs.dirs + fs.files + {dir};
        }
      }
      Success(found)
  }

  /** `len(list(dir.glob(pattern)))` for a pattern `Glob` accepts. */
  function CountMatching(fs: FileSystem, dir: Path, pattern: string): nat {
    |Selected(fs, dir, Parts(pattern))|
  }

  /**
    A pattern that is one plain component selects exactly the entries of
    `dir` whose name it matches, files and directories alike.
   */
  lemma GlobOneComponent(fs: FileSystem, dir: Path, pattern: string)
    requires IsComponent(pattern) && IsDir(fs, dir)
    ensures forall n ::
              dir + [n] in Selected(fs, dir, Parts(pattern)) <==> Match(pattern, n) && (dir + [n] in fs.dirs || dir + [n] in fs.files)
    ensures forall e :: e in Selected(fs, dir, Parts(pattern)) ==> |e| == |dir| + 1 && e == dir + [e[|dir|]]
  {
    var found := Selected(fs, dir, [pattern]);
    forall n ensures dir + [n] in found <==> Match(pattern, n) && (dir + [n] in fs.dirs || dir + [n] in fs.files) {
      var e := dir + [n];
      assert e[..|dir|] == dir && e[|dir|] == n && e != [];
      if Match(pattern, n) && (e in fs.dirs || e in fs.files) {
        assert forall i :: 0 <= i < 1 ==> Match([pattern][i], e[|dir| + i]);
        assert Selects(fs, dir, [pattern], e);
        assert e in fs.dirs + fs.files + {dir};
      }
      if e in found {
        assert Selects(fs, dir, [pattern], e);
        assert Match([pattern][0], e[|dir| + 0]);
      }
    }
    forall e | e in found ensures |e| == |dir| + 1 && e == dir + [e[|dir|]] {
      assert e == e[..|dir|] + [e[|dir|]];
    }
  }

  /** A new file that the segments select adds one to the count. */
  lemma CountAfterNewFile(fs: FileSystem, dir: Path, pattern: string, f: Path)
    requires f !in fs.dirs && f !in fs.files && f != dir
    requires Selects(fs.(files := fs.files + {f}), dir, Parts(pattern), f)
    ensures CountMatching(fs.(files := fs.files + {f}), dir, pattern) == CountMatching(fs, dir, pattern) + 1
  {
    var fs' := fs.(files := fs.files + {f});
    var segments := Parts(pattern);
    var before := Selected(fs, dir, segments);
    var after := Selected(fs', dir, segments);
    assert f !in before;
    assert after == before + {f} by {
      forall e ensures e in after <==> e in before + {f} {
        if e != f {
          assert Selects(fs', dir, segments, e) <==> Selects(fs, dir, segments, e);
        }
      }
    }
  }

  /** Distinct names give distinct entries of one directory. */
  lemma {:induction false} ChildrenCount(dir: Path, names: set<string>)
    ensures |set n | n in names :: dir + [n]| == |names|
    decreases names
  {
    if names != {} {
      var x :| x in names;
      var rest := names - {x};
      ChildrenCount(dir, rest);
      var children := set n | n in rest :: dir + [n];
      assert (set n | n in names :: dir + [n]) == children + {dir + [x]};
      assert dir + [x] !in children by {
        forall m | m in rest ensures dir + [m] != dir + [x] {
          assert (dir + [m])[|dir|] == m;
        }
      }
    }
  }
}

=== FILE: results.dfy ===
/** Optional values and failure-carrying results shared by the model. */
module Results {

  /** A value that may be absent; Python's `None` is `None` here. */
  datatype Option<+T> = None | Some(value: T)

  /** The outcome of an operation that can raise. */
  datatype Result<+T, +E> = Success(value: T) | Failure(error: E) {

    predicate IsFailure() {
      Failure?
    }

    function PropagateFailure<U>(): Result<U, E>
      requires Failure?
    {
      Failure(error)
    }

    function Extract(): T
      requires Success?
    {
      value
    }
  }
}

=== FILE: scenarios.dfy ===
/**
  Runs of one batch told end to end: the directories the first run creates,
  the number a fresh run and a resumed run get for a given set of
  configuration files, and two consequences of numbering by counting files.
  Everything is stated for any batch whose root and configuration directory
  are plain names, so nothing here depends on particular strings.
 */
module BatchScenarios {
  import opened Results
  import opened Glob
  import opened Paths
  import opened Batch
  import opened BatchProperties

  /**
    A batch with a root and a configuration directory that are single names,
    a name and YAML base name without wildcard or separator, and no number yet.
   */
  predicate PlainBatch(c: BatchConfig) {
    && IsComponent(c.batchRoot) && IsComponent(c.configDirname)
    && Literal(c.batchName) && Literal(c.configYaml)
    && '/' !in c.batchName && '/' !in c.configYaml
    && c.batchNum < 0
  }

  /** A disk holding the directories `root` and `dir`, and in `dir` exactly the named files. */
  function Layout(root: Path, dir: Path, names: set<string>): FileSystem {
    FileSystem({root, dir}, set n | n in names :: dir + [n])
  }

  /** The disk once both directories of the batch exist, holding exactly the named files in the configuration directory. */
  function WithConfigs(c: BatchConfig, names: set<string>): FileSystem {
    Layout(RootDir(c), ConfigDirPath(c), names)
  }

  /** A root of one name with a directory of one more name below it. */
  predicate TwoLevels(root: Path, dir: Path) {
    |root| == 1 && |dir| == 2 && dir[..1] == root
  }

  lemma PlainLevels(c: BatchConfig)
    requires IsComponent(c.batchRoot) && IsComponent(c.configDirname)
    ensures RootDir(c) == [c.batchRoot] && ConfigDirPath(c) == [c.batchRoot, c.configDirname]
    ensures TwoLevels(RootDir(c), ConfigDirPath(c))
  {
    assert [c.batchRoot, c.configDirname][..1] == [c.batchRoot];
  }

  /** The YAML file that run `k` of the batch writes. */
  function RunFile(c: BatchConfig, k: int): string {
    ConfigFilename(c.(batchNum := k))
  }

  lemma PrefixesOfLevels(root: Path, dir: Path)
    requires TwoLevels(root, dir)
    ensures Prefixes(root) == {root}
    ensures Prefixes(dir) == {root, dir}
  {
    assert root[..1] == root && dir[..2] == dir;
    forall q | q in Prefixes(dir) ensures q == root || q == dir {
      var i :| 1 <= i <= 2 && q == dir[..i];
    }
  }

  /** On an empty disk, creating `root` and then `dir` gives the layout with no files. */
  lemma LevelsOnEmptyDisk(root: Path, dir: Path)
    requires TwoLevels(root, dir)
    ensures EnsureDir(FileSystem({}, {}), root) == Success(FileSystem({root}, {}))
    ensures EnsureDir(FileSystem({root}, {}), dir) == Success(Layout(root, dir, {}))
  {
    PrefixesOfLevels(root, dir);
    assert {} + Prefixes(root) == {root};
    assert {root} + Prefixes(dir) == {root, dir};
    assert (set n: string | n in {} :: dir + [n]) == {};
    assert Layout(root, dir, {}) == FileSystem({root, dir}, {});
  }

  /** Starting from an empty disk, `config_dir` creates the root and then the configuration directory. */
  lemma ScanOfEmptyDisk(c: BatchConfig)
    requires IsComponent(c.batchRoot) && IsComponent(c.configDirname)
    ensures ConfigDir(c, FileSystem({}, {})) == Success(Located(ConfigDirPath(c), WithConfigs(c, {})))
  {
    var root, d := RootDir(c), ConfigDirPath(c);
    PlainLevels(c);
    LevelsOnEmptyDisk(root, d);
    assert BatchDir(c, FileSystem({}, {})) == Success(Located(root, FileSystem({root}, {})));
  }

  /** In a `Layout` both directories and their ancestors are directories and not files. */
  lemma LayoutPresent(root: Path, dir: Path, names: set<string>)
    requires TwoLevels(root, dir)
    ensures var fs := Layout(root, dir, names);
            && (forall i :: 1 <= i <= |root| ==> root[..i] in fs.dirs && root[..i] !in fs.files)
            && (forall i :: 1 <= i <= |dir| ==> dir[..i] in fs.dirs && dir[..i] !in fs.files)
  {
    assert root[..1] == root && dir[..2] == dir;
  }

  /** With both directories present, `config_dir` creates nothing. */
  lemma ScanOfExistingLayout(c: BatchConfig, names: set<string>)
    requires IsComponent(c.batchRoot) && IsComponent(c.configDirname)
    ensures ConfigDir(c, WithConfigs(c, names)) == Success(Located(ConfigDirPath(c), WithConfigs(c, names)))
  {
    var fs, root, d := WithConfigs(c, names), RootDir(c), ConfigDirPath(c);
    PlainLevels(c);
    LayoutPresent(root, d, names);
    EnsureDirExisting(fs, root);
    EnsureDirExisting(fs, d);
    assert BatchDir(c, fs) == Success(Located(root, fs));
  }

  /** In a `Layout`, a one-component pattern that matches every name selects exactly the files. */
  lemma CountInLayout(root: Path, dir: Path, names: set<string>, pattern: string)
    requires |root| <= |dir| && IsComponent(pattern)
    requires forall m :: m in names ==> Match(pattern, m)
    ensures Selected(Layout(root, dir, names), dir, Parts(pattern)) == Layout(root, dir, names).files
    ensures CountMatching(Layout(root, dir, names), dir, pattern) == |names|
  {
    var fs := Layout(root, dir, names);
    GlobOneComponent(fs, dir, pattern);
    var found := Selected(fs, dir, Parts(pattern));
    assert found == fs.files by {
      forall e ensures e in found <==> e in fs.files {
        if e in found {
          assert e == dir + [e[|dir|]];
          assert e != root && e != dir;
        }
        if e in fs.files {
          var m :| m in names && e == dir + [m];
          assert e == dir + [e[|dir|]];
        }
      }
    }
    ChildrenCount(dir, names);
  }

  /** When a one-component pattern matches every given name, the glob yields exactly the batch's files. */
  lemma CountInConfigs(c: BatchConfig, names: set<string>, pattern: string)
    requires IsComponent(c.batchRoot) && IsComponent(c.configDirname) && IsComponent(pattern)
    requires forall m :: m in names ==> Match(pattern, m)
    ensures Selected(WithConfigs(c, names), ConfigDirPath(c), Parts(pattern)) == WithConfigs(c, names).files
    ensures CountMatching(WithConfigs(c, names), ConfigDirPath(c), pattern) == |names|
  {
    PlainLevels(c);
    CountInLayout(RootDir(c), ConfigDirPath(c), names, pattern);
  }

  /** How an unset batch number is resolved against the given configuration files, all of this batch. */
  lemma NumberedAgainst(c: BatchConfig, names: set<string>)
    requires IsComponent(c.batchRoot) && IsComponent(c.configDirname) && c.batchNum < 0
    requires '/' !in c.batchName && '/' !in c.configYaml
    requires forall m :: m in names ==> Match(ConfigFilePattern(c), m)
    ensures var n := |names|;
            SetBatchNum(c, WithConfigs(c, names))
              == Success(Step(c.(batchNum := if c.resumeLatest && n > 0 then n - 1 else n), WithConfigs(c, names)))
    ensures var r := SetBatchNum(c, WithConfigs(c, names));
            && r.Success?
            && r.value.config.batchNum == if c.resumeLatest && |names| > 0 then |names| - 1 else |names|
  {
    var fs := WithConfigs(c, names);
    ScanOfExistingLayout(c, names);
    CountInConfigs(c, names, ConfigFilePattern(c));
    SetBatchNumFromScan(c, fs, Located(ConfigDirPath(c), fs));
  }

  /** On an empty disk a fresh run and a resumed run are both run 0 (no underflow to -1), after both directories are created. */
  lemma FirstRunIsZero(c: BatchConfig)
    requires PlainBatch(c)
    ensures var r := SetBatchNum(c, FileSystem({}, {}));
            && r.Success?
            && r.value.config.batchNum == 0
            && r.value.fs.dirs == {[c.batchRoot], [c.batchRoot, c.configDirname]}
  {
    assert SetBatchNum(c, FileSystem({}, {})) == Success(Step(c.(batchNum := 0), WithConfigs(c, {}))) by {
      ScanOfEmptyDisk(c);
      CountInConfigs(c, {}, ConfigFilePattern(c));
      SetBatchNumFromScan(c, FileSystem({}, {}), Located(ConfigDirPath(c), WithConfigs(c, {})));
    }
    PlainLevels(c);
    assert WithConfigs(c, {}).dirs == {RootDir(c), ConfigDirPath(c)};
  }

  /** With run 0's file present a fresh run is run 1. */
  lemma SecondFreshRunIsOne(c: BatchConfig)
    requires PlainBatch(c) && !c.resumeLatest
    ensures var r := SetBatchNum(c, WithConfigs(c, {RunFile(c, 0)}));
            r.Success? && r.value.config.batchNum == 1
  {
    PatternMatchesEveryRun(c, 0);
    NumberedAgainst(c, {RunFile(c, 0)});
  }

  /** With the files of runs 0 and 1 present a resumed run is run 1, the latest. */
  lemma ResumeLatestOfTwoIsOne(c: BatchConfig)
    requires PlainBatch(c) && c.resumeLatest
    ensures var r := SetBatchNum(c, WithConfigs(c, {RunFile(c, 0), RunFile(c, 1)}));
            r.Success? && r.value.config.batchNum == 1
  {
    PatternMatchesEveryRun(c, 0);
    PatternMatchesEveryRun(c, 1);
    ConfigFilenameInjective(c.(batchNum := 0), c.(batchNum := 1));
    assert |{RunFile(c, 0), RunFile(c, 1)}| == 2;
    NumberedAgainst(c, {RunFile(c, 0), RunFile(c, 1)});
  }

  /** With both directories present, `config_filepath` of run `k` names the file `RunFile(c, k)` in the configuration directory. */
  lemma RunFilePath(c: BatchConfig, names: set<string>, k: int)
    requires PlainBatch(c)
    ensures ConfigFilepath(c.(batchNum := k), WithConfigs(c, names))
              == Success(Located(ConfigDirPath(c) + [RunFile(c, k)], WithConfigs(c, names)))
  {
    var c' := c.(batchNum := k);
    assert ConfigDir(c', WithConfigs(c, names)) == Success(Located(ConfigDirPath(c), WithConfigs(c, names))) by {
      ScanOfExistingLayout(c', names);
    }
  }

  /**
    Numbering counts files rather than reading their numbers: with only run
    1's file left, a fresh run is numbered 1 again and its configuration file
    is the one already there.
   */
  lemma GapReusesNumber(c: BatchConfig)
    requires PlainBatch(c) && !c.resumeLatest
    ensures var r := SetBatchNum(c, WithConfigs(c, {RunFile(c, 1)}));
            && r.Success?
            && r.value.config.batchNum == 1
            && ConfigFilepath(r.value.config, r.value.fs).Success?
            && ConfigFilepath(r.value.config, r.value.fs).value.path in r.value.fs.files
  {
    var names := {RunFile(c, 1)};
    var fs := WithConfigs(c, names);
    assert SetBatchNum(c, fs) == Success(Step(c.(batchNum := 1), fs)) by {
      PatternMatchesEveryRun(c, 1);
      NumberedAgainst(c, names);
    }
    RunFilePath(c, names, 1);
    assert ConfigDirPath(c) + [RunFile(c, 1)] in fs.files;
  }

  /**
    The pattern is keyed by the batch name only up to the `(`: every file of
    a batch whose name extends this one's name followed by `(` (such as
    batch "a(0)_b" for batch "a") is counted as a run of this batch.
   */
  lemma OtherBatchCounted(a: BatchConfig, b: BatchConfig)
    requires Literal(a.batchName) && Literal(a.configYaml) && b.configYaml == a.configYaml
    requires |a.batchName| + 1 <= |b.batchName| && b.batchName[..|a.batchName| + 1] == a.batchName + "("
    ensures b.batchName != a.batchName
    ensures Match(ConfigFilePattern(a), ConfigFilename(b))
  {
    var r := ConfigFilename(b);
    var p := FilePrefix(b);
    var k := |a.batchName| + 1;
    assert r[..k] == p[..k] == b.batchName[..k];
    assert r[|r| - 2 - |a.configYaml|..] == ")_" + a.configYaml by {
      assert r[|r| - 2 - |a.configYaml|..] == [p[|p| - 1]] + "_" + a.configYaml;
    }
    ConfigFilePatternMatches(a, r);
  }
}
